=== FILE: README.md ===
# causalapp core, modelled in Dafny

causalapp is a Streamlit front end for causal analysis of media and
marketing data. The causal inference itself is done by the DoWhy library;
what the application adds is a set of small helpers around it, and a
generator of synthetic data. This project models those helpers and the
generator as pure Dafny functions, and proves properties about them.

- **SheetLink** (`sheet_link.dfy`) turns a pasted Google Sheets link into
  its CSV-export URL. Each regular-expression search finds the leftmost
  match and then takes the maximal greedy run. The unescaped `.` of the
  sheet pattern matches any character except a newline. A link with no
  `gid=` followed by a digit gets the tab id `"0"`.
- **CausalGraph** (`causal_graph.dfy`) builds the causal graph. It has the
  edge treatment → outcome, plus confounder → treatment and
  confounder → outcome for each confounder. Graphs are sets of nodes and
  edges.
- **Selection** (`selection.dfy`) repairs a stored treatment, outcome and
  confounder choice against the columns of the loaded table. It also lists
  the confounder options offered.
- **Config** (`config.dfy`) covers saving and loading the session
  configuration, at the level of decoded JSON values. Saving nests the
  session keys under `"syn"` and `"causal"`. Loading copies back whatever
  the file provides. A Python membership test or index that raises ends
  the load with the assignments made so far.
- **LineScan**, **Refutation** and **Estimates** (`line_scan.dfy`,
  `refutation.dfy`, `estimates.dfy`) read the library's results:
  - numbers scraped from printed refuter and estimator output;
  - the relative change of a refuted estimate;
  - the three-source confidence-interval lookup;
  - the estimate-value precedence;
  - the significance test, the sign/warning classification, and one row of
    the estimator comparison table.
- **Synthetic** (`synthetic.dfy`) is `generate_media_marketing_data`. The
  random generator is a stream of standard-normal draws, consumed in the
  source's order. `sin`, `log1p` and `π` are parameters. The result table
  is an ordered list of named columns, with pandas' "assign replaces in
  place, else appends" behaviour.
- **Text** and **Optional** (`text.dfy`, `optional.dfy`) hold the string
  helpers (`split`, `strip`, `in`, last field) and the option type.

Python's `float()` on a string is a parameter `parse: string -> Option<real>`.
None stands for "raises".

The generator's behaviour on unusual inputs:
- The generator is not told that channel names are distinct. Duplicates
  are modelled: the dictionary keeps the last occurrence's column, and the
  effect sum counts the name once per occurrence.
- A channel named `seasonality` or `price` is replaced by that column when
  that confounder is included. A channel named `sales` is always replaced
  by the outcome column.
- A negative noise scale makes numpy's `normal` raise. It is an error of
  the generator (`NegativeNoiseScale`), not a precondition.
- An empty channel list is refused by the form (`GenerateFromForm`). The
  generator itself accepts it: the effect sum is then 0.

## Model

| member | source | states |
|---|---|---|
| SheetLink.FirstMatch | app.py:73 | The result is a position where the whole pattern matches, and no match lies between the start and it; None means no match at or after the start. |
| SheetLink.Search | app.py:73-78 | None iff the pattern matches nowhere. Otherwise the result is the non-empty maximal run of class characters after the leftmost match, as `re.search(...).group(1)` returns it. |
| SheetLink.SearchFinds | app.py:73-78 | Whenever a leftmost match and the maximal run after it are known, the search returns exactly that run. |
| SheetLink.SheetId | app.py:73-76 | None iff the sheet pattern (with `.` as a wildcard) never matches. Otherwise the id is the non-empty maximal run of `[a-zA-Z0-9-_]` after the leftmost match. |
| SheetLink.Gid | app.py:77-78 | The tab id is "0" when no `gid=<digit>` occurs. Otherwise it is the maximal digit run after the leftmost `gid=` that is followed by a digit. It is always non-empty digits. |
| SheetLink.ConvertToCsvUrl | app.py:70-79 | An empty link, or one without a sheet match, gives None. Otherwise the result is the export URL built from the maximal id run after the leftmost sheet match and from the link's tab id (the digits after the leftmost `gid=` that is followed by a digit, or "0"). The id is non-empty and made of id characters; the tab id is non-empty digits. |
| SheetLink.ExportUrl | app.py:79 | The export URL is the fixed `https://docs.google.com/spreadsheets/d/` head, then the id, then the fixed `/export?format=csv&gid=` middle, then the tab id, each at its stated position. |
| SheetLink.MaximalRunUnique | app.py:73-78 | Two maximal runs of one character class from the same position are the same string, so the greedy `+` captures one well-defined group. |
| SheetLink.SheetIdOfExportUrl | app.py:73-79 | Searching an export URL for the sheet pattern gives back the id it was built from: the id stops at the `/` that follows it. |
| SheetLink.GidOfExportUrl | app.py:77-79 | The leftmost `gid=` followed by a digit in an export URL is the appended one, so the tab id read back is the one it was built from. |
| SheetLink.GidMatchInExportUrl | app.py:77-79 | The appended `gid=` of an export URL is the leftmost place where `gid=<digit>` matches. |
| SheetLink.NoGidKeyBefore | app.py:77-79 | No `gid=` match starts anywhere in an export URL before the appended `gid=`. |
| SheetLink.ExportUrlIsFixedPoint | app.py:70-79 | Converting an export URL returns that same URL. |
| SheetLink.ConvertIdempotent | app.py:70-79 | Converting a converted link gives the same link again. |
| CausalGraph.AddConfounders | app.py:145-148 | The confounder loop adds exactly the confounders as nodes and exactly the edges c→treatment and c→outcome, and nothing else. |
| CausalGraph.AddNode | app.py:142-143 | `add_node` adds exactly the node and no edge; adding a node already present changes nothing. |
| CausalGraph.AddEdge | app.py:144-148 | `add_edge` adds exactly the edge and its two end points; adding an edge already present changes nothing. |
| CausalGraph.BuildGraph | app.py:140-149 | The nodes are exactly {treatment, outcome} ∪ confounders. The edges are exactly treatment→outcome plus both confounder edges, so every edge ends at the treatment or the outcome. |
| CausalGraph.BuildGraphOrderFree | app.py:145-148 | Two confounder lists with the same elements, in any order and with any repetition, give the same graph. |
| CausalGraph.SelfLoopIsCycle | app.py:140-144 | A graph with an edge x→x has no topological ranking. |
| CausalGraph.BuildGraphAcyclicIff | app.py:140-149 | The graph is acyclic iff the treatment differs from the outcome and neither is listed as a confounder. |
| Selection.KeepEligible | app.py:634 | The kept confounders are an order-preserving subsequence of the stored ones. Each kept one is a column other than treatment and outcome, and every eligible name is kept as often as it was stored. |
| Selection.KeepEligibleIdempotent | app.py:634 | Filtering an already filtered list changes nothing. |
| Selection.ConfounderOptions | app.py:649 | The options are exactly the columns other than treatment and outcome, in column order, each as many times as it occurs among the columns. |
| Selection.Sanitise | app.py:626-635 | None iff fewer than two columns. A stored treatment or outcome that names a column is kept; otherwise the treatment becomes the second column and the outcome the first. The confounders are the order-preserving sublist of the stored ones that name other columns. Each eligible name keeps its stored multiplicity, duplicates included. |
| Selection.SanitiseIdempotent | app.py:630-635 | Sanitising a sanitised choice returns it unchanged. |
| Selection.SanitisedWithinOptions | app.py:634-649 | Every sanitised confounder is among the options the confounder multiselect offers. |
| Selection.SanitisedGraphAcyclic | app.py:634-635 | When the repaired treatment and outcome differ, the graph built from the sanitised choice is acyclic. |
| Selection.RolesMayCoincide | app.py:630-633 | A valid treatment that is the first column, together with an invalid outcome, makes both roles the same column. |
| Config.Member | app.py:205-224 | `key in x` followed by `x[key]` finds a value iff x is an object holding the key, and never raises on an object. On a list it raises iff the list holds the key as a string element. On a string it raises iff the key is a substring. On a number, boolean or null it always raises. |
| Config.CopyKeys | app.py:205-224 | A copy loop never removes a key. Each value it leaves was either already there or is provided by the file for one of its table's keys. It completes on an object, and then (with distinct session keys) every provided key holds its provided value. |
| Config.Save | app.py:172-190 | The saved config is an object with exactly `src`, `gs_link`, `syn` and `causal`, and its sections are objects, so it loads without error. |
| Config.LoadSection | app.py:208-224 | Loading one section never removes a key, and keys outside its table keep their values. A missing section, or one that is an object, gives no error. |
| Config.Load | app.py:203-225 | Loading never removes a key, and every key a config file cannot set keeps its value, whether the load completes or fails. A file that decodes to a number, boolean or null is rejected with the session unchanged. |
| Config.ScalarConfigRejected | app.py:203-207 | A number, boolean or null file is rejected at the first `in` test and writes nothing. |
| Config.ListOrStringConfig | app.py:203-227 | A list or string file never changes the session, and it is rejected exactly when one of the four top-level names is an element of the list or a substring of the string. |
| Config.TablesFollowRoutes | app.py:205-224 | The three copy tables route each session key to the file location saving writes it to, and their session keys are distinct. |
| Config.RoutesAreTabled | app.py:205-224 | Every session key a file can set is copied by an entry of the table for its section: top level, `syn`, or `causal`. |
| Config.LoadFrame | app.py:199-228 | Loading, whether it completes or stops with "Invalid config", keeps every key and changes values only to the ones the file provides. |
| Config.LoadLeavesUnprovidedKeys | app.py:203-228 | A key the file does not provide keeps its presence and value. |
| Config.LoadCopiesTopKeys | app.py:205-224 | Loading an object leaves its `src` and `gs_link` values in the session, whether or not a later section fails. |
| Config.ScalarSectionRejected | app.py:211-224 | A `syn` or `causal` section that is a number, a boolean or null makes the load fail, with the top-level keys already copied. |
| Config.WellFormedLoads | app.py:203-224 | A file that is an object, whose present `syn` and `causal` sections are objects, loads without error. |
| Config.LoadAppliesProvided | app.py:205-224 | After a completed load every key the file provides holds the provided value. |
| Config.SaveProvides | app.py:173-190 | The saved file provides each managed key at its nested location, holding the session value, null if absent, or [] for missing confounders. |
| Config.SaveLoadRoundTrip | app.py:173-224 | Loading a saved config into any session completes. It restores every managed key to the saved value and leaves every other key as it was. |
| Text.Contains | app.py:300 | `pat in s` holds iff the pattern occurs at some position of the string. |
| Text.Split | app.py:295 | `split` gives at least one part, no part contains the separator, and joining the parts with the separator gives back the string. |
| Text.LastField | app.py:302 | `split(sep)[-1]` is the suffix after the last separator, or the whole string when there is none. |
| Text.TrimStart | app.py:302 | Left stripping removes exactly a whitespace prefix and leaves a non-space first character. |
| Text.TrimEnd | app.py:302 | Right stripping removes exactly a whitespace suffix and leaves a non-space last character. |
| Text.Strip | app.py:302 | A stripped string is a piece of the input with only whitespace before and after it. It is empty or starts and ends with a non-space character. |
| LineScan.LastHit | app.py:299-309 | A loop without `break`: None iff no line yields a value. Otherwise the value comes from a line after which no line yields one, so the last parseable line wins. |
| LineScan.FieldValue | app.py:300-302 | A line's field is the stripped text after its last colon, or the whole stripped line when it has no colon, passed to the float conversion. |
| LineScan.Hit | app.py:299-302 | A line contributes a value only when it contains the marker, and then contributes its field value. |
| LineScan.FirstHit | app.py:447-453 | A loop that breaks on success: None iff no line yields a value. Otherwise the value comes from a line before which no line yields one. |
| LineScan.FirstHitAgrees | app.py:447-453 | Two line readers that agree on every line give the same first hit. |
| Refutation.ScanRefutation | app.py:295-309 | The new effect and the p value are each the last parseable value among the lines carrying their marker. |
| Refutation.RelativeChangePct | app.py:314 | For a nonzero original the change is non-negative, and times the original's magnitude it equals 100 times the absolute difference. |
| Refutation.InterpretRefutation | app.py:293-314 | "Could not parse" iff either field is missing. Otherwise the scraped values are reported, with the relative change for a nonzero original and 0 for a zero original. |
| Refutation.DeltaPct | app.py:497-499 | The table's delta is missing iff the original or the new effect is missing or the original is 0; otherwise it is the relative change. |
| Refutation.RefutationColumns | app.py:484-499 | The table cells hold each scraped field even when the other is missing. There is a delta exactly when there is a nonzero original and a new effect, and it is the relative change between them in percent. |
| Refutation.NarrativeVersusTable | app.py:311-314 | For a parsed refutation the narrative and the table agree on the new effect, and on the change for a nonzero original. For a zero original the narrative says 0% while the table cell is empty. |
| Estimates.ToFloat | app.py:238 | `float()` of a number is that number, and of a string is what parsing the string gives. Of anything else it raises. |
| Estimates.FloatPair | app.py:238 | A pair of bounds converts iff both convert, and holds the two converted values. |
| Estimates.ProbeInterval | app.py:236-242 | A value decides the lookup iff it is a sequence of length ≥ 2 or a dict with `lower` and `upper`. Its result is then the converted first two items or the two entries. |
| Estimates.GetConfidenceIntervals | app.py:230-260 | An interval comes from the method when it decides (a raise decides "no interval"). Otherwise it comes from the attribute when that decides. Otherwise it comes from the `ci_lower`/`ci_upper` pair. Each case states the result exactly. |
| Estimates.MethodIntervalWins | app.py:234-238 | A usable interval from the method is returned, whatever the attribute and the bound pair hold. |
| Estimates.ShapelessMethodFallsThrough | app.py:234-245 | A method result that is neither a long-enough sequence nor a bounds dict is ignored, as if the method did not exist. |
| Estimates.ShapelessAttrFallsThrough | app.py:245-256 | When method and attribute both fail to decide, the bound pair alone determines the result. |
| Estimates.EarlierFailureHidesLaterInterval | app.py:232-260 | A method that raises ends the whole lookup with None, even when a later source holds a valid interval. |
| Estimates.FirstPresent | app.py:440-444 | The chosen attribute is the first present one among value, estimate and causal_estimate, and is absent only when all three are. |
| Estimates.TextValue | app.py:445-453 | The value read from the printed estimate is None iff no line gives a number. Otherwise it is the number from the first line that gives one, where an `ATE:` line is read by its field and any other line by `Mean value:`. |
| Estimates.ExtractValue | app.py:439-453 | The first present attribute among `value`, `estimate` and `causal_estimate` is taken as it is unless it holds None. A None, or no attribute, falls back to the number read from the printed text. A None result means the text gave nothing. |
| Estimates.PresentNoneShadowsLaterAttributes | app.py:440-445 | A present `value` holding None hides a numeric `estimate`, and the text decides. |
| Estimates.AnalysisValue | app.py:726-736 | The analysis tab finds no value iff no `Mean value:` line parses. |
| Estimates.AnalysisValueMatchesWithoutAteLines | app.py:726-736 | Without `ATE:` lines, the analysis tab's value equals the value the estimator run reads from the same text. |
| Estimates.Significant | app.py:457-460 | None iff a bound is missing; otherwise significant iff the interval lies strictly on one side of zero. |
| Estimates.InterpretEstimate | app.py:263-276 | The sign is positive iff the value is > 0. There is no interval note iff a bound is missing. The zero warning fires iff lower < 0 < upper, and the "increases"/"decreases" notes follow the sign. |
| Estimates.WarningImpliesNotSignificant | app.py:269-272 | Whenever the zero warning fires, the table marks the estimate not significant. |
| Estimates.BoundaryGap | app.py:457-460 | An interval is "not significant" without a warning iff both bounds exist, it contains zero, and a bound is exactly zero. |
| Estimates.ComparisonRow | app.py:475-531 | A row is an error row iff estimation raised. The bounds are both present or both absent, and significance is computed from them. A raising estimator gives the all-empty error row. Otherwise the ATE is the extracted value and the bounds are the interval lookup's, whether or not the refuter raises. A raising refuter leaves the refutation cells empty. A delta implies a nonzero numeric ATE and a new effect. A value that is neither a number nor None never has a delta. When such a value meets a new effect, the failed subtraction empties both refutation cells. |
| Estimates.ComparisonRowAgrees | app.py:478-515 | For a numeric or None value, the row holds the extracted value, the interval lookup's bounds, and the shared refutation cells computed against that value. |
| Synthetic.Normal | utils/synthetic.py:33 | n draws of `normal(loc, scale)` are loc + scale·z over the next n stream positions, and the cursor advances by n. |
| Synthetic.Min | utils/synthetic.py:49 | The minimum is an element of the array and is at most every element. |
| Synthetic.Shift | utils/synthetic.py:49 | After `clip(x - min + 1, 0)` every value is ≥ 1, some value is exactly 1, and all pairwise differences are kept, so the clip never changes a value. |
| Synthetic.Seasonality | utils/synthetic.py:9-11 | The seasonality term has one entry per week. Its values are stated where a table uses them (`TableLookup`). |
| Synthetic.Driver | utils/synthetic.py:41-47 | Every channel's confounded driver is 2·base + 3·seasonality − 0.03·price, week by week. |
| Synthetic.SpendColumn | utils/synthetic.py:41-49 | A channel's spend column has one entry per row, is never below 1, and is exactly 1 in its cheapest row. Between two rows it differs exactly as driver plus unit noise does. |
| Synthetic.ConfoundedSpend | utils/synthetic.py:33-49 | Between any two weeks, a generated channel's spend changes by 2× the change in base, plus 3× the change in seasonality, minus 0.03× the change in price, plus the change in its own noise draw. So the confounders drive every channel. |
| Synthetic.SpendColumns | utils/synthetic.py:39-49 | After the channel loop the dictionary's keys are exactly the keys it started with plus the listed channels. |
| Synthetic.SpendColumnsCursor | utils/synthetic.py:40-41 | The channel loop consumes exactly n draws per listed channel, repeats included. |
| Synthetic.SpendColumnsLast | utils/synthetic.py:40-49 | A channel's entry is the column drawn at its last occurrence in the list. |
| Synthetic.SpendColumnsByPosition | utils/synthetic.py:39-49 | Running the channel loop over the columns gives the same dictionary as recording each channel's draw position and building its column afterwards. |
| Synthetic.SetColumnNames | utils/synthetic.py:64-68 | Assigning a column keeps the names when it exists, else appends it at the end. |
| Synthetic.SetColumnFinds | utils/synthetic.py:64-68 | After assigning a column, reading it gives the assigned values. |
| Synthetic.SetColumnLeavesOthers | utils/synthetic.py:64-68 | Assigning a column leaves every other column's values unchanged. |
| Synthetic.SetColumnKeepsDistinct | utils/synthetic.py:64-68 | Assigning a column never creates a repeated column name. |
| Synthetic.FromColumnsLookup | utils/synthetic.py:63 | The frame built from the channel dictionary holds each listed channel's dictionary entry. |
| Synthetic.Generate | utils/synthetic.py:29-60 | Generation fails iff the row count is ≤ 0 (the assert) or the noise scale is negative (numpy raises); otherwise it assembles the computed parts. |
| Synthetic.Compute | utils/synthetic.py:29-61 | The generator's arrays all have num_rows entries, and the spend dictionary has exactly the listed channels as keys, each with num_rows entries. |
| Synthetic.Assemble | utils/synthetic.py:63-68 | Whatever the channel names, the frame's `sales` column is the sales array. |
| Synthetic.GenerateFromForm | app.py:125-133 | The form refuses an empty channel list without calling the generator, and otherwise returns the generator's result. |
| Synthetic.ConfounderDraws | utils/synthetic.py:33-36 | Base takes draws [0, n). Price takes [n, 2n) only when included. Seasonality takes no draws, and an excluded confounder is all zeros. |
| Synthetic.DrawPrice | utils/synthetic.py:36 | When included, the price is 100 + 5·z over the next n draws, and the stream advances by n. Otherwise it is zeros and takes no draws. |
| Synthetic.ComputeUsesPositions | utils/synthetic.py:39-60 | The spend dictionary and the outcome noise are the ones drawn at the positions the channel loop assigns. |
| Synthetic.ChannelDraws | utils/synthetic.py:40-49 | The channel at list index j (its last occurrence) uses the n draws starting after base, price and j earlier channel blocks. |
| Synthetic.SalesNoiseDraws | utils/synthetic.py:60 | The outcome noise uses the n draws after every channel block, scaled by the noise scale. |
| Synthetic.SalesFormula | utils/synthetic.py:52-61 | Every row's sales is 5 + 1.5·Σ 0.8·log1p(spend) + 2.5·seasonality − 0.05·price + noise. |
| Synthetic.EffectAtLast | utils/synthetic.py:52 | The channel effect is a left-to-right sum, as Python's `sum`: the total over the channels is the total over all but the last plus the last one's 0.8·log1p(spend). |
| Synthetic.AssembleLookup | utils/synthetic.py:63-68 | A column of the result holds sales, price or seasonality when so named and included, else the channel's spend, and is absent otherwise. |
| Synthetic.TableLookup | utils/synthetic.py:63-68 | The same for a generated table, with the seasonality column equal to the sine term. |
| Synthetic.SeasonalityIgnoresDraws | utils/synthetic.py:9-11 | An included seasonality column is the same for every random stream. |
| Synthetic.AssembleOrder | utils/synthetic.py:63-68 | For distinct, non-reserved channel names the columns are the channels in order, then seasonality if included, then price if included, then sales. |
| Synthetic.AssembleShape | utils/synthetic.py:63-68 | An assembled frame never repeats a column name, and all its columns have the common row count. |
| Synthetic.Schema | utils/synthetic.py:63-68 | A generated table has exactly that column order, with the computed values. |
| Synthetic.TableShape | utils/synthetic.py:63-68 | A generated table never repeats a column name, and every column has exactly num_rows entries. |
| Synthetic.SingleChannelNoiseless | utils/synthetic.py:52-61 | With one channel, no confounders and zero noise, sales = 5 + 1.2·log1p(spend) in every row. |
| Synthetic.RepeatedChannelCountsTwice | utils/synthetic.py:40-68 | A channel listed twice yields one spend column. Its effect is counted twice: sales = 5 + 2.4·log1p(spend). |
| Synthetic.AssembleRepeatedNames | utils/synthetic.py:63-68 | A channel listed twice gives a frame with just that channel's column followed by sales. |

## Left out

- The Streamlit page is presentation and is not modelled. This covers
  `main`, `_header`, `_init_session_state`, tabs, widgets, `st.rerun`, the
  widget part of `_load_data_from_source`, and all markdown and f-string
  formatting, including the `:.4f` renderings and the per-refuter
  descriptions of `_interpret_refutation`. `InterpretEstimate` and
  `InterpretRefutation` model only the decisions and the numbers the text
  shows.
- The causal-inference library is foreign code and is not modelled. This
  covers `_run_dowhy`, `estimate_effect`, `refute_estimate`,
  `_run_refuter_with_fallbacks` and the graph object. The estimate object
  is a datatype of the attributes the app inspects. The refuter and
  estimator outputs are their printed text. A library call that raises is
  a None input (`ComparisonRow`).
- `_fetch_csv_with_timeout`, `pd.read_csv` and the CSV upload are network
  and file I/O. `_plot_response_curves` is plotting. Neither is modelled.
- `json.dumps` and `json.loads` are not modelled: configs are decoded JSON
  values. A file that is not valid JSON is outside the model.
- Python's `float()` on strings is the `parse` parameter. Its grammar
  (signs, exponents, `nan`, `inf`, surrounding whitespace) is not modelled.
  NaN and infinite values are outside the model, because reals have
  neither.
- SheetLink.Gid: `\d` is taken to be the ASCII digits only. Python's `\d`
  also matches other Unicode decimal digits, so links whose `gid=` is
  followed by such digits are not covered.
- numpy's generator is not modelled. The seed is replaced by the stream of
  standard-normal draws it selects, so the normal distribution and the
  reproducibility of a given seed are assumed, not proved.
- `np.sin`, `np.log1p` and `π` are uninterpreted parameters (`Numerics`).
  Arithmetic is on reals, so IEEE rounding is not modelled.
- Synthetic.Seasonality: its only contract is the array length. Its
  values, 0.5·sin(2π·i/52), are used by the lemmas that mention it, not
  restated as a contract.
- Synthetic.Generate: the `num_rows > 0` check is a Python `assert`, which
  `python -O` removes. The model always applies it.
- The analysis tab reads `estimate_value`, `ci_lower` and `ci_upper` from
  the results dictionary, which never holds them (app.py:678-688). So the
  value always comes from the text (`AnalysisValue`), and the interval
  metrics never show. The model covers only the text fallback.
- The refuter summary table of the refutations tab (app.py:880-904) is the
  same scan and delta as the comparison table. It is covered by
  `RefutationColumns`, not by a separate member. Its value extraction
  (app.py:850-864) is `ExtractValue`.
- The per-estimator loop of `_run_estimators_comparison`, and the
  `ESTIMATOR_MAP` lookup, are modelled only one row at a time
  (`ComparisonRow`).
- Selection.Sanitise: the stored choice is narrowed to an optional string
  per role and a list of strings for the confounders, while a loaded
  config can put any JSON value there. For treatment and outcome this is
  faithful, because a non-string value is never a column name and is
  replaced like a missing one. For the confounders it is not: a string is
  iterated character by character, an object by its keys, and a number,
  boolean or null makes the comprehension raise. None of these cases is
  modelled.

=== FILE: causal_graph.dfy ===
/**
 * The causal graph handed to the causal-inference library (`_build_graph`,
 * app.py): a directed graph with the edge treatment -> outcome and, for every
 * confounder c, the edges c -> treatment and c -> outcome. Nodes and edges are
 * sets, as in a directed graph where re-adding a node or an edge is a no-op.
 */
module CausalGraph {

  datatype Graph = Graph(nodes: set<string>, edges: set<(string, string)>)

  const EmptyGraph: Graph := Graph({}, {})

  /** `add_node`: the node is present afterwards; re-adding one is a no-op. */
  function AddNode(g: Graph, n: string): (r: Graph)
    ensures r.nodes == g.nodes + {n} && r.edges == g.edges
    ensures n in g.nodes ==> r == g
  {
    g.(nodes := g.nodes + {n})
  }

  /** `add_edge`: adding an edge also adds its two end points; re-adding one is a no-op. */
  function AddEdge(g: Graph, a: string, b: string): (r: Graph)
    ensures r.nodes == g.nodes + {a, b} && r.edges == g.edges + {(a, b)}
    ensures a in g.nodes && b in g.nodes && (a, b) in g.edges ==> r == g
  {
    Graph(g.nodes + {a, b}, g.edges + {(a, b)})
  }

  /** The edges c -> t and c -> o contributed by the confounders. */
  ghost function ConfounderEdges(t: string, o: string, cs: seq<string>): set<(string, string)> {
    (set c | c in cs :: (c, t)) + (set c | c in cs :: (c, o))
  }

  /** The loop over the confounders, applied to a graph that already holds t and o. */
  function AddConfounders(g: Graph, t: string, o: string, cs: seq<string>): (r: Graph)
    requires t in g.nodes && o in g.nodes
    ensures r.nodes == g.nodes + (set c | c in cs)
    ensures r.edges == g.edges + ConfounderEdges(t, o, cs)
    decreases |cs|
  {
    if cs == [] then g
    else
      var c := cs[0];
      var g' := AddEdge(AddEdge(AddNode(g, c), c, t), c, o);
      ConfounderStep(t, o, cs);
      AddConfounders(g', t, o, cs[1..])
  }

  /** Peeling the first confounder off the node and edge sets. */
  lemma ConfounderStep(t: string, o: string, cs: seq<string>)
    requires cs != []
    ensures (set c | c in cs) == {cs[0]} + (set c | c in cs[1..])
    ensures ConfounderEdges(t, o, cs) == {(cs[0], t), (cs[0], o)} + ConfounderEdges(t, o, cs[1..])
  {
    assert cs == [cs[0]] + cs[1..];
  }

  /** `_build_graph`: exactly {t, o} and the confounders as nodes, and the three kinds of edge. */
  function BuildGraph(t: string, o: string, cs: seq<string>): (g: Graph)
    ensures g.nodes == {t, o} + (set c | c in cs)
    ensures g.edges == {(t, o)} + ConfounderEdges(t, o, cs)
    ensures forall e :: e in g.edges ==> e.1 == t || e.1 == o
  {
    AddConfounders(AddEdge(AddNode(AddNode(EmptyGraph, t), o), t, o), t, o, cs)
  }

  /** The graph depends only on the set of confounders, not on their order or repetitions. */
  lemma BuildGraphOrderFree(t: string, o: string, cs: seq<string>, ds: seq<string>)
    requires forall c :: c in cs <==> c in ds
    ensures BuildGraph(t, o, cs) == BuildGraph(t, o, ds)
  {
    assert (set c | c in cs) == (set c | c in ds);
    assert ConfounderEdges(t, o, cs) == ConfounderEdges(t, o, ds);
  }

  /** `rank` strictly increases along every edge of `g`. */
  ghost predicate RankedBy(g: Graph, rank: string -> nat) {
    forall e :: e in g.edges ==> rank(e.0) < rank(e.1)
  }

  /** Some numbering of the nodes strictly increases along every edge. */
  ghost predicate Acyclic(g: Graph) {
    exists rank: string -> nat :: RankedBy(g, rank)
  }

  lemma SelfLoopIsCycle(g: Graph, x: string)
    requires (x, x) in g.edges
    ensures !Acyclic(g)
  {
    forall rank: string -> nat
      ensures !RankedBy(g, rank)
    {
      assert rank((x, x).0) >= rank((x, x).1);
    }
  }

  /** Confounders first, then the treatment, then the outcome. */
  function RoleRank(t: string, o: string, n: string): nat {
    if n == o then 2 else if n == t then 1 else 0
  }

  /**
   * The built graph is a DAG exactly when treatment and outcome differ and
   * neither of them is listed as a confounder; otherwise it has a self-loop.
   */
  lemma BuildGraphAcyclicIff(t: string, o: string, cs: seq<string>)
    ensures Acyclic(BuildGraph(t, o, cs)) <==> t != o && t !in cs && o !in cs
  {
    var g := BuildGraph(t, o, cs);
    if t != o && t !in cs && o !in cs {
      var rank := (n: string) => RoleRank(t, o, n);
      forall e | e in g.edges
        ensures rank(e.0) < rank(e.1)
      {
        if e != (t, o) {
          assert e.0 in cs;
        }
      }
      assert RankedBy(g, rank);
    } else {
      var x := if t == o || t in cs then t else o;
      assert (x, x) in g.edges;
      SelfLoopIsCycle(g, x);
    }
  }
}

=== FILE: config.dfy ===
/**
 * Saving and loading the session configuration (`_config_download_button`
 * and `_config_upload`, app.py), at the level of decoded JSON values.
 * Saving nests the flat session keys under "syn" and "causal"; loading copies
 * whichever keys the file provides back into the session, one assignment at a
 * time, and leaves every other key as it was. A membership test or an index
 * that Python would reject ends the load with an error, keeping the
 * assignments already made.
 */
module Config {
  import opened Optional
  import opened Text

  /** A decoded JSON value. */
  datatype Json =
    | JNull
    | JBool(b: bool)
    | JNum(x: real)
    | JStr(s: string)
    | JList(items: seq<Json>)
    | JObject(fields: map<string, Json>)

  /** The session state, restricted to JSON-representable values. */
  type Session = map<string, Json>

  /** `st.session_state.get(k, default)`. */
  function GetOr(s: Session, k: string, default: Json): Json {
    if k in s then s[k] else default
  }

  /** `st.session_state.get(k)`. */
  function Get(s: Session, k: string): Json {
    GetOr(s, k, JNull)
  }

  /**
   * `_config_download_button`: the nested config written to the file. It is
   * an object with the two top-level keys and the two sections, and loads
   * without error.
   */
  function Save(s: Session): (r: Json)
    ensures WellFormed(r)
    ensures r.fields.Keys == {"src", "gs_link", "syn", "causal"}
  {
    JObject(map[
      "src" := Get(s, "src"),
      "gs_link" := Get(s, "gs_link"),
      "syn" := SaveSyn(s),
      "causal" := SaveCausal(s)])
  }

  /** The "syn" section of a saved config. */
  function SaveSyn(s: Session): Json {
    JObject(map[
      "n" := Get(s, "syn_n"),
      "noise" := Get(s, "syn_noise"),
      "season" := Get(s, "syn_season"),
      "channels" := Get(s, "syn_channels"),
      "price" := Get(s, "syn_price"),
      "seed" := Get(s, "syn_seed")])
  }

  /** The "causal" section of a saved config; missing confounders are saved as an empty list. */
  function SaveCausal(s: Session): Json {
    JObject(map[
      "treatment" := Get(s, "treatment"),
      "outcome" := Get(s, "outcome"),
      "confounders" := GetOr(s, "confounders", JList([]))])
  }

  /** The (file key, session key) pairs copied at each level of the file. */
  const TopKeys: seq<(string, string)> := [("src", "src"), ("gs_link", "gs_link")]
  const SynKeys: seq<(string, string)> :=
    [("n", "syn_n"), ("noise", "syn_noise"), ("season", "syn_season"),
     ("channels", "syn_channels"), ("price", "syn_price"), ("seed", "syn_seed")]
  const CausalKeys: seq<(string, string)> :=
    [("treatment", "treatment"), ("outcome", "outcome"), ("confounders", "confounders")]

  /** A number, a boolean or null: a value `in` cannot search. */
  predicate IsScalar(x: Json) {
    x.JNull? || x.JBool? || x.JNum?
  }

  /** The outcome of `key in x` followed by `x[key]` in Python. */
  datatype Lookup = Absent | Found(v: Json) | Raises

  /**
   * On an object, ordinary key lookup. On a list, `in` compares elements and
   * indexing by a string raises; on a string, `in` is a substring test and
   * indexing by a string raises; on a number, boolean or null, `in` raises.
   */
  function Member(x: Json, key: string): (r: Lookup)
    ensures r.Found? <==> x.JObject? && key in x.fields
    ensures r.Found? ==> r.v == x.fields[key]
    ensures x.JObject? ==> !r.Raises?
    ensures x.JList? ==> (r.Raises? <==> JStr(key) in x.items)
    ensures x.JStr? ==> (r.Raises? <==> Contains(x.s, key))
    ensures IsScalar(x) ==> r.Raises?
  {
    match x
    case JObject(m) => if key in m then Found(m[key]) else Absent
    case JList(items) => if JStr(key) in items then Raises else Absent
    case JStr(text) => if Contains(text, key) then Raises else Absent
    case _ => Raises
  }

  /** A load either completes, or stops with "Invalid config" and the session as far as it got. */
  datatype Loaded = Applied(session: Session) | Rejected(session: Session)

  /** `x[k]` when `x` is an object holding `k`. */
  function Field(x: Json, k: string): Option<Json> {
    if x.JObject? && k in x.fields then Some(x.fields[k]) else None
  }

  /** Session keys in `pairs` are pairwise distinct. */
  predicate DistinctTargets(pairs: seq<(string, string)>) {
    forall i, j :: 0 <= i < j < |pairs| ==> pairs[i].1 != pairs[j].1
  }

  /** The loop `for k_src, k_dst in pairs: if k_src in x: session[k_dst] = x[k_src]`. */
  function CopyKeys(x: Json, pairs: seq<(string, string)>, s: Session): (r: Loaded)
    ensures forall k :: k in s ==> k in r.session
    ensures forall k :: k in r.session ==>
      (k in s && r.session[k] == s[k])
      || exists i :: 0 <= i < |pairs| && pairs[i].1 == k && Field(x, pairs[i].0) == Some(r.session[k])
    ensures x.JObject? ==> r.Applied?
    ensures r.Applied? && DistinctTargets(pairs) ==> forall i :: 0 <= i < |pairs| && Field(x, pairs[i].0).Some? ==>
      pairs[i].1 in r.session && r.session[pairs[i].1] == Field(x, pairs[i].0).value
    decreases |pairs|
  {
    if pairs == [] then Applied(s)
    else
      match Member(x, pairs[0].0)
      case Absent => CopyKeys(x, pairs[1..], s)
      case Found(v) => CopyKeys(x, pairs[1..], s[pairs[0].1 := v])
      case Raises => Rejected(s)
  }

  /** Session key `k` is one of the targets of `pairs`. */
  predicate Targets(pairs: seq<(string, string)>, k: string) {
    exists i :: 0 <= i < |pairs| && pairs[i].1 == k
  }

  /**
   * `if section in cfg: m = cfg[section]` followed by the copy loop over `m`.
   * No key is removed and keys outside the table keep their values; a
   * missing section, or one that is an object, gives no error.
   */
  function LoadSection(cfg: Json, section: string, pairs: seq<(string, string)>, s: Session): (r: Loaded)
    ensures forall k :: k in s ==> k in r.session
    ensures forall k :: k in r.session && !Targets(pairs, k) ==> k in s && r.session[k] == s[k]
    ensures cfg.JObject? && (section in cfg.fields ==> cfg.fields[section].JObject?) ==> r.Applied?
  {
    match Member(cfg, section)
    case Absent => Applied(s)
    case Found(m) => CopyKeys(m, pairs, s)
    case Raises => Rejected(s)
  }

  /**
   * `_config_upload`, from the decoded file onwards: no key is removed, and
   * keys a config file cannot set keep their values, whether the load
   * completes or fails.
   */
  function Load(cfg: Json, s: Session): (r: Loaded)
    ensures forall k :: k in s ==> k in r.session
    ensures forall k :: k in r.session && k !in ManagedKeys ==> k in s && r.session[k] == s[k]
    ensures IsScalar(cfg) ==> r == Rejected(s)
  {
    UnmanagedNotTargeted();
    var top := CopyKeys(cfg, TopKeys, s);
    assert forall k :: k in top.session && !Targets(TopKeys, k) ==> k in s && top.session[k] == s[k];
    if top.Rejected? then top
    else
      var syn := LoadSection(cfg, "syn", SynKeys, top.session);
      if syn.Rejected? then syn
      else LoadSection(cfg, "causal", CausalKeys, syn.session)
  }

  /** Only managed keys are targets of the copy tables. */
  lemma UnmanagedNotTargeted()
    ensures forall k :: k !in ManagedKeys ==>
      !Targets(TopKeys, k) && !Targets(SynKeys, k) && !Targets(CausalKeys, k)
  {
    forall k | k !in ManagedKeys
      ensures !Targets(TopKeys, k) && !Targets(SynKeys, k) && !Targets(CausalKeys, k)
    {
      assert forall i :: 0 <= i < |TopKeys| ==> TopKeys[i].1 in ManagedKeys;
      assert forall i :: 0 <= i < |SynKeys| ==> SynKeys[i].1 in ManagedKeys;
      assert forall i :: 0 <= i < |CausalKeys| ==> CausalKeys[i].1 in ManagedKeys;
    }
  }

  /** Where in the file each session key is read from. */
  datatype Route = Top(key: string) | Nested(section: string, key: string)

  function RouteOf(k: string): Option<Route> {
    match k
    case "src" => Some(Top("src"))
    case "gs_link" => Some(Top("gs_link"))
    case "syn_n" => Some(Nested("syn", "n"))
    case "syn_noise" => Some(Nested("syn", "noise"))
    case "syn_season" => Some(Nested("syn", "season"))
    case "syn_channels" => Some(Nested("syn", "channels"))
    case "syn_price" => Some(Nested("syn", "price"))
    case "syn_seed" => Some(Nested("syn", "seed"))
    case "treatment" => Some(Nested("causal", "treatment"))
    case "outcome" => Some(Nested("causal", "outcome"))
    case "confounders" => Some(Nested("causal", "confounders"))
    case _ => None
  }

  /** The session keys a config file can set. */
  const ManagedKeys: set<string> :=
    {"src", "gs_link", "syn_n", "syn_noise", "syn_season", "syn_channels", "syn_price", "syn_seed",
     "treatment", "outcome", "confounders"}

  /** The value the file provides for session key `k`, if it provides one. */
  function Provided(cfg: Json, k: string): Option<Json> {
    match RouteOf(k)
    case None => None
    case Some(Top(key)) => Field(cfg, key)
    case Some(Nested(section, key)) =>
      match Field(cfg, section)
      case None => None
      case Some(m) => Field(m, key)
  }

  /** A file that loads without an error: an object whose sections, when present, are objects. */
  predicate WellFormed(cfg: Json) {
    && cfg.JObject?
    && ("syn" in cfg.fields ==> cfg.fields["syn"].JObject?)
    && ("causal" in cfg.fields ==> cfg.fields["causal"].JObject?)
  }

  /** The copy tables agree with the routes, and their session keys do not overlap. */
  lemma TablesFollowRoutes()
    ensures forall i :: 0 <= i < |TopKeys| ==> RouteOf(TopKeys[i].1) == Some(Top(TopKeys[i].0))
    ensures forall i :: 0 <= i < |SynKeys| ==> RouteOf(SynKeys[i].1) == Some(Nested("syn", SynKeys[i].0))
    ensures forall i :: 0 <= i < |CausalKeys| ==> RouteOf(CausalKeys[i].1) == Some(Nested("causal", CausalKeys[i].0))
    ensures DistinctTargets(TopKeys) && DistinctTargets(SynKeys) && DistinctTargets(CausalKeys)
    ensures forall k :: RouteOf(k).Some? <==> k in ManagedKeys
  {
  }

  /** Every route is served by an entry of the matching copy table. */
  lemma RoutesAreTabled(k: string)
    requires RouteOf(k).Some?
    ensures RouteOf(k).value.Top? ==> exists i :: 0 <= i < |TopKeys| && TopKeys[i].1 == k
    ensures RouteOf(k).value.Nested? && RouteOf(k).value.section == "syn" ==>
      exists i :: 0 <= i < |SynKeys| && SynKeys[i].1 == k
    ensures RouteOf(k).value.Nested? && RouteOf(k).value.section != "syn" ==>
      RouteOf(k).value.section == "causal" && exists i :: 0 <= i < |CausalKeys| && CausalKeys[i].1 == k
  {
    if k == "src" { assert TopKeys[0].1 == k; }
    else if k == "gs_link" { assert TopKeys[1].1 == k; }
    else if k == "syn_n" { assert SynKeys[0].1 == k; }
    else if k == "syn_noise" { assert SynKeys[1].1 == k; }
    else if k == "syn_season" { assert SynKeys[2].1 == k; }
    else if k == "syn_channels" { assert SynKeys[3].1 == k; }
    else if k == "syn_price" { assert SynKeys[4].1 == k; }
    else if k == "syn_seed" { assert SynKeys[5].1 == k; }
    else if k == "treatment" { assert CausalKeys[0].1 == k; }
    else if k == "outcome" { assert CausalKeys[1].1 == k; }
    else { assert CausalKeys[2].1 == k; }
  }

  /** `r` extends `s`, changing values only to ones the file provides. */
  ghost predicate Frames(cfg: Json, s: Session, r: Session) {
    && (forall k :: k in s ==> k in r)
    && (forall k :: k in r ==> (k in s && r[k] == s[k]) || Provided(cfg, k) == Some(r[k]))
  }

  /** Every key the table routes to `x` that the file provides holds the provided value in `r`. */
  ghost predicate AppliesTable(cfg: Json, pairs: seq<(string, string)>, r: Session) {
    forall i :: 0 <= i < |pairs| && Provided(cfg, pairs[i].1).Some? ==>
      pairs[i].1 in r && r[pairs[i].1] == Provided(cfg, pairs[i].1).value
  }

  lemma FramesTransitive(cfg: Json, s1: Session, s2: Session, s3: Session)
    requires Frames(cfg, s1, s2) && Frames(cfg, s2, s3)
    ensures Frames(cfg, s1, s3)
  {
  }

  /** Once a key holds its provided value, a framed step keeps it there. */
  lemma FramesKeepProvided(cfg: Json, pairs: seq<(string, string)>, s1: Session, s2: Session)
    requires AppliesTable(cfg, pairs, s1) && Frames(cfg, s1, s2)
    ensures AppliesTable(cfg, pairs, s2)
  {
  }

  lemma TopStep(cfg: Json, s: Session)
    ensures Frames(cfg, s, CopyKeys(cfg, TopKeys, s).session)
    ensures CopyKeys(cfg, TopKeys, s).Applied? ==> AppliesTable(cfg, TopKeys, CopyKeys(cfg, TopKeys, s).session)
  {
    TablesFollowRoutes();
    TopLevelStep(cfg, TopKeys, s);
  }

  lemma TopLevelStep(cfg: Json, pairs: seq<(string, string)>, s: Session)
    requires forall i :: 0 <= i < |pairs| ==> RouteOf(pairs[i].1) == Some(Top(pairs[i].0))
    requires DistinctTargets(pairs)
    ensures Frames(cfg, s, CopyKeys(cfg, pairs, s).session)
    ensures CopyKeys(cfg, pairs, s).Applied? ==> AppliesTable(cfg, pairs, CopyKeys(cfg, pairs, s).session)
  {
    var r := CopyKeys(cfg, pairs, s).session;
    forall k | k in r && !(k in s && r[k] == s[k])
      ensures Provided(cfg, k) == Some(r[k])
    {
      var i :| 0 <= i < |pairs| && pairs[i].1 == k && Field(cfg, pairs[i].0) == Some(r[k]);
      assert RouteOf(k) == Some(Top(pairs[i].0));
    }
    forall i | 0 <= i < |pairs|
      ensures Provided(cfg, pairs[i].1) == Field(cfg, pairs[i].0)
    {
      assert RouteOf(pairs[i].1) == Some(Top(pairs[i].0));
    }
  }

  lemma SectionStep(cfg: Json, section: string, pairs: seq<(string, string)>, s: Session)
    requires forall i :: 0 <= i < |pairs| ==> RouteOf(pairs[i].1) == Some(Nested(section, pairs[i].0))
    requires DistinctTargets(pairs)
    ensures Frames(cfg, s, LoadSection(cfg, section, pairs, s).session)
    ensures LoadSection(cfg, section, pairs, s).Applied? ==>
      AppliesTable(cfg, pairs, LoadSection(cfg, section, pairs, s).session)
  {
  }

  /**
   * Loading never removes a key, and every value it leaves in the session is
   * either the one that was there or the one the file provides for that key.
   */
  lemma LoadFrame(cfg: Json, s: Session)
    ensures Frames(cfg, s, Load(cfg, s).session)
  {
    TablesFollowRoutes();
    var top := CopyKeys(cfg, TopKeys, s);
    TopStep(cfg, s);
    if top.Applied? {
      var syn := LoadSection(cfg, "syn", SynKeys, top.session);
      SectionStep(cfg, "syn", SynKeys, top.session);
      FramesTransitive(cfg, s, top.session, syn.session);
      if syn.Applied? {
        SectionStep(cfg, "causal", CausalKeys, syn.session);
        FramesTransitive(cfg, s, syn.session, Load(cfg, s).session);
      }
    }
  }

  /** Keys the file does not provide keep their value, whether or not the load fails. */
  lemma LoadLeavesUnprovidedKeys(cfg: Json, s: Session, k: string)
    requires Provided(cfg, k).None?
    ensures k in Load(cfg, s).session <==> k in s
    ensures k in s ==> Load(cfg, s).session[k] == s[k]
  {
    LoadFrame(cfg, s);
  }

  /** A file whose top level and sections are objects loads without error. */
  lemma WellFormedLoads(cfg: Json, s: Session)
    requires WellFormed(cfg)
    ensures Load(cfg, s).Applied?
  {
  }

  /** Loading an object copies its top-level keys first; later failures do not undo them. */
  lemma LoadCopiesTopKeys(cfg: Json, s: Session)
    requires cfg.JObject?
    ensures forall i :: 0 <= i < |TopKeys| && TopKeys[i].0 in cfg.fields ==>
      TopKeys[i].1 in Load(cfg, s).session && Load(cfg, s).session[TopKeys[i].1] == cfg.fields[TopKeys[i].0]
  {
    TablesFollowRoutes();
    var top := CopyKeys(cfg, TopKeys, s);
    var r := Load(cfg, s).session;
    TopStep(cfg, s);
    SectionStep(cfg, "syn", SynKeys, top.session);
    var syn := LoadSection(cfg, "syn", SynKeys, top.session);
    if syn.Applied? {
      SectionStep(cfg, "causal", CausalKeys, syn.session);
      FramesTransitive(cfg, top.session, syn.session, r);
    }
    FramesKeepProvided(cfg, TopKeys, top.session, r);
    forall i | 0 <= i < |TopKeys|
      ensures Provided(cfg, TopKeys[i].1) == Field(cfg, TopKeys[i].0)
    {
      assert RouteOf(TopKeys[i].1) == Some(Top(TopKeys[i].0));
    }
  }

  /**
   * A "syn" or "causal" section that is a number, a boolean or null makes the
   * membership test raise: the load fails, with the top-level keys already copied.
   */
  lemma ScalarSectionRejected(cfg: Json, s: Session)
    requires cfg.JObject?
    requires || ("syn" in cfg.fields && IsScalar(cfg.fields["syn"]))
             || ("causal" in cfg.fields && IsScalar(cfg.fields["causal"]))
    ensures Load(cfg, s).Rejected?
    ensures forall i :: 0 <= i < |TopKeys| && TopKeys[i].0 in cfg.fields ==>
      TopKeys[i].1 in Load(cfg, s).session && Load(cfg, s).session[TopKeys[i].1] == cfg.fields[TopKeys[i].0]
  {
    LoadCopiesTopKeys(cfg, s);
    var top := CopyKeys(cfg, TopKeys, s);
    var syn := LoadSection(cfg, "syn", SynKeys, top.session);
    assert top.Applied?;
    if "syn" in cfg.fields && IsScalar(cfg.fields["syn"]) {
      assert Member(cfg.fields["syn"], SynKeys[0].0).Raises?;
    } else if syn.Applied? {
      assert Member(cfg.fields["causal"], CausalKeys[0].0).Raises?;
    }
  }

  /**
   * A decoded file that is a number, boolean or null is rejected at the first
   * `in` test, before anything is written.
   */
  lemma ScalarConfigRejected(cfg: Json, s: Session)
    requires IsScalar(cfg)
    ensures Load(cfg, s).Rejected? && Load(cfg, s).session == s
  {
  }

  /**
   * A decoded file that is a list or a string never sets a key: every
   * `cfg[k]` would raise. It is rejected exactly when one of the four
   * top-level `in` tests succeeds (an element equal to the name, or a
   * substring), since the indexing that follows raises.
   */
  lemma ListOrStringConfig(cfg: Json, s: Session)
    requires cfg.JList? || cfg.JStr?
    ensures Load(cfg, s).session == s
    ensures Load(cfg, s).Rejected? <==>
      || Member(cfg, "src").Raises? || Member(cfg, "gs_link").Raises?
      || Member(cfg, "syn").Raises? || Member(cfg, "causal").Raises?
  {
  }

  /** A completed load leaves every provided key holding the provided value. */
  lemma LoadAppliesProvided(cfg: Json, s: Session)
    requires Load(cfg, s).Applied?
    ensures forall k :: Provided(cfg, k).Some? ==>
      k in Load(cfg, s).session && Load(cfg, s).session[k] == Provided(cfg, k).value
  {
    TablesFollowRoutes();
    var top := CopyKeys(cfg, TopKeys, s);
    var syn := LoadSection(cfg, "syn", SynKeys, top.session);
    var r := Load(cfg, s).session;
    TopStep(cfg, s);
    SectionStep(cfg, "syn", SynKeys, top.session);
    SectionStep(cfg, "causal", CausalKeys, syn.session);
    FramesKeepProvided(cfg, TopKeys, top.session, syn.session);
    FramesKeepProvided(cfg, TopKeys, syn.session, r);
    FramesKeepProvided(cfg, SynKeys, syn.session, r);
    forall k | Provided(cfg, k).Some?
      ensures k in r && r[k] == Provided(cfg, k).value
    {
      RoutesAreTabled(k);
    }
  }

  /** What saving records for a managed key: its session value, or the default. */
  function SavedValue(s: Session, k: string): Json {
    if k == "confounders" then GetOr(s, k, JList([])) else Get(s, k)
  }

  /** The saved file provides, for each managed key, the value saving recorded. */
  lemma SaveProvides(s: Session, k: string)
    requires k in ManagedKeys
    ensures Provided(Save(s), k) == Some(SavedValue(s, k))
  {
    TablesFollowRoutes();
    var cfg := Save(s);
    assert Field(cfg, "syn") == Some(SaveSyn(s));
    assert Field(cfg, "causal") == Some(SaveCausal(s));
    match RouteOf(k).value
    case Top(key) =>
    case Nested(section, key) =>
      if section == "syn" { SynSaved(s, k); } else { CausalSaved(s, k); }
  }

  lemma SynSaved(s: Session, k: string)
    requires RouteOf(k).Some? && RouteOf(k).value.Nested? && RouteOf(k).value.section == "syn"
    ensures Field(SaveSyn(s), RouteOf(k).value.key) == Some(SavedValue(s, k))
  {
  }

  lemma CausalSaved(s: Session, k: string)
    requires RouteOf(k).Some? && RouteOf(k).value.Nested? && RouteOf(k).value.section == "causal"
    ensures Field(SaveCausal(s), RouteOf(k).value.key) == Some(SavedValue(s, k))
  {
  }

  /**
   * Loading a saved config restores every managed key to the saved value and
   * leaves every other key of the target session as it was.
   */
  lemma SaveLoadRoundTrip(s: Session, s0: Session)
    ensures Load(Save(s), s0).Applied?
    ensures forall k :: k in ManagedKeys ==>
      k in Load(Save(s), s0).session && Load(Save(s), s0).session[k] == SavedValue(s, k)
    ensures forall k :: k in ManagedKeys && k in s ==> Load(Save(s), s0).session[k] == s[k]
    ensures forall k :: k !in ManagedKeys ==>
      (k in Load(Save(s), s0).session <==> k in s0)
      && (k in s0 ==> Load(Save(s), s0).session[k] == s0[k])
  {
    SaveLoadRestoresManaged(s, s0);
  }

  /** Loading a saved file completes and sets every managed key to the saved value. */
  lemma SaveLoadRestoresManaged(s: Session, s0: Session)
    ensures Load(Save(s), s0).Applied?
    ensures forall k :: k in ManagedKeys ==>
      k in Load(Save(s), s0).session && Load(Save(s), s0).session[k] == SavedValue(s, k)
  {
    var cfg := Save(s);
    WellFormedLoads(cfg, s0);
    LoadAppliesProvided(cfg, s0);
    forall k | k in ManagedKeys
      ensures Provided(cfg, k) == Some(SavedValue(s, k))
    {
      SaveProvides(s, k);
    }
  }

}

=== FILE: estimates.dfy ===
/**
 * Reading an effect estimate returned by the causal-inference library
 * (`_get_confidence_intervals`, `_run_estimator`, `_significant`,
 * `_interpret_estimate` and the comparison-table row, app.py).
 * The library's estimate object is modelled by which attributes and methods
 * it has and what they hold; Python's `float()` on a string is `parse`.
 */
module Estimates {
  import opened Optional
  import opened Text
  import opened LineScan
  import Refutation

  /** The Python values an estimate's attributes may hold. */
  datatype PyValue =
    | PyNone
    | PyNum(x: real)
    | PyStr(s: string)
    | PySeq(items: seq<PyValue>)            // a list or a tuple
    | PyDict(entries: map<string, PyValue>)
    | PyOther                               // any other object; float() rejects it

  /** An attribute as seen by `hasattr` / `getattr`. */
  datatype Attr = Missing | Has(v: PyValue)

  /** A zero-argument method: absent, raising, or returning a value. */
  datatype Call = NotDefined | Raises | Returns(v: PyValue)

  datatype EstimateObject = EstimateObject(
    ciMethod: Call,        // get_confidence_intervals()
    ciAttr: Attr,          // confidence_intervals
    ciLower: Attr,         // ci_lower
    ciUpper: Attr,         // ci_upper
    value: Attr,
    estimate: Attr,
    causalEstimate: Attr,  // causal_estimate
    text: string)          // str(estimate)

  /** Python's `float(v)`; None where it raises. */
  function ToFloat(v: PyValue, parse: string -> Option<real>): (r: Option<real>)
    ensures v.PyNum? ==> r == Some(v.x)
    ensures v.PyStr? ==> r == parse(v.s)
    ensures !v.PyNum? && !v.PyStr? ==> r.None?
  {
    match v
    case PyNum(x) => Some(x)
    case PyStr(s) => parse(s)
    case _ => None
  }

  /** `(float(a), float(b))`; None where either conversion raises. */
  function FloatPair(a: PyValue, b: PyValue, parse: string -> Option<real>): (r: Option<(real, real)>)
    ensures r.Some? <==> ToFloat(a, parse).Some? && ToFloat(b, parse).Some?
    ensures r.Some? ==> r.value == (ToFloat(a, parse).value, ToFloat(b, parse).value)
  {
    match (ToFloat(a, parse), ToFloat(b, parse))
    case (Some(x), Some(y)) => Some((x, y))
    case _ => None
  }

  /**
   * One source of an interval either decides the answer (a pair, or None
   * because a conversion raised and the whole lookup gives up) or leaves it
   * to the next source.
   */
  datatype Probe = Undecided | Decided(result: Option<(real, real)>)

  /** A list or tuple of at least two items, or a dict with both "lower" and "upper". */
  predicate HasIntervalShape(ci: PyValue) {
    (ci.PySeq? && |ci.items| >= 2) || (ci.PyDict? && "lower" in ci.entries && "upper" in ci.entries)
  }

  function ProbeInterval(ci: PyValue, parse: string -> Option<real>): (r: Probe)
    ensures r.Undecided? <==> !HasIntervalShape(ci)
    ensures ci.PySeq? && |ci.items| >= 2 ==> r == Decided(FloatPair(ci.items[0], ci.items[1], parse))
    ensures ci.PyDict? && HasIntervalShape(ci) ==>
      r == Decided(FloatPair(ci.entries["lower"], ci.entries["upper"], parse))
  {
    match ci
    case PySeq(items) =>
      if |items| >= 2 then Decided(FloatPair(items[0], items[1], parse)) else Undecided
    case PyDict(m) =>
      if "lower" in m && "upper" in m then Decided(FloatPair(m["lower"], m["upper"], parse)) else Undecided
    case _ => Undecided
  }

  function ProbeMethod(c: Call, parse: string -> Option<real>): Probe {
    match c
    case NotDefined => Undecided
    case Raises => Decided(None)
    case Returns(v) => ProbeInterval(v, parse)
  }

  function ProbeAttr(a: Attr, parse: string -> Option<real>): Probe {
    match a
    case Missing => Undecided
    case Has(v) => ProbeInterval(v, parse)
  }

  /** The last source: both `ci_lower` and `ci_upper` present. */
  function ProbeBounds(lower: Attr, upper: Attr, parse: string -> Option<real>): Option<(real, real)> {
    if lower.Has? && upper.Has? then FloatPair(lower.v, upper.v, parse) else None
  }

  /** `_get_confidence_intervals`: method, then attribute, then the bound pair. */
  function GetConfidenceIntervals(e: EstimateObject, parse: string -> Option<real>): (r: Option<(real, real)>)
    ensures r.Some? ==>
      || ProbeMethod(e.ciMethod, parse) == Decided(r)
      || (ProbeMethod(e.ciMethod, parse).Undecided? && ProbeAttr(e.ciAttr, parse) == Decided(r))
      || (ProbeMethod(e.ciMethod, parse).Undecided? && ProbeAttr(e.ciAttr, parse).Undecided?
          && e.ciLower.Has? && e.ciUpper.Has? && FloatPair(e.ciLower.v, e.ciUpper.v, parse) == r)
    ensures ProbeMethod(e.ciMethod, parse).Decided? ==> r == ProbeMethod(e.ciMethod, parse).result
    ensures ProbeMethod(e.ciMethod, parse).Undecided? && ProbeAttr(e.ciAttr, parse).Decided? ==>
      r == ProbeAttr(e.ciAttr, parse).result
    ensures ProbeMethod(e.ciMethod, parse).Undecided? && ProbeAttr(e.ciAttr, parse).Undecided? ==>
      r == ProbeBounds(e.ciLower, e.ciUpper, parse)
  {
    match ProbeMethod(e.ciMethod, parse)
    case Decided(r) => r
    case Undecided =>
      match ProbeAttr(e.ciAttr, parse)
      case Decided(r) => r
      case Undecided => ProbeBounds(e.ciLower, e.ciUpper, parse)
  }

  /** A usable interval from the method is taken whatever the other sources hold. */
  lemma MethodIntervalWins(e: EstimateObject, parse: string -> Option<real>, lo: real, hi: real)
    requires e.ciMethod.Returns? && HasIntervalShape(e.ciMethod.v)
    requires ProbeInterval(e.ciMethod.v, parse) == Decided(Some((lo, hi)))
    ensures GetConfidenceIntervals(e, parse) == Some((lo, hi))
  {
  }

  /**
   * A method result that is None, too short a list, a dict without both keys
   * or any other object falls through: the answer is as if the method were absent.
   */
  lemma ShapelessMethodFallsThrough(e: EstimateObject, parse: string -> Option<real>)
    requires e.ciMethod.Returns? && !HasIntervalShape(e.ciMethod.v)
    ensures GetConfidenceIntervals(e, parse) == GetConfidenceIntervals(e.(ciMethod := NotDefined), parse)
  {
  }

  /** The same for the attribute: without an interval shape, only the bound pair is left. */
  lemma ShapelessAttrFallsThrough(e: EstimateObject, parse: string -> Option<real>)
    requires ProbeMethod(e.ciMethod, parse).Undecided?
    requires e.ciAttr.Has? && !HasIntervalShape(e.ciAttr.v)
    ensures GetConfidenceIntervals(e, parse) == ProbeBounds(e.ciLower, e.ciUpper, parse)
  {
  }

  /**
   * An exception in an earlier source ends the lookup with None, even when a
   * later source holds a usable interval.
   */
  lemma EarlierFailureHidesLaterInterval(e: EstimateObject, parse: string -> Option<real>)
    requires e.ciMethod.Raises?
      || (e.ciMethod.Returns? && HasIntervalShape(e.ciMethod.v) && ProbeInterval(e.ciMethod.v, parse) == Decided(None))
    ensures GetConfidenceIntervals(e, parse).None?
  {
  }

  /** The first of value, estimate and causal_estimate that is present; `Missing` if none is. */
  function FirstPresent(e: EstimateObject): (r: Attr)
    ensures r.Missing? <==> e.value.Missing? && e.estimate.Missing? && e.causalEstimate.Missing?
    ensures r.Has? ==> r == e.value || (e.value.Missing? && (r == e.estimate || (e.estimate.Missing? && r == e.causalEstimate)))
  {
    if e.value.Has? then e.value
    else if e.estimate.Has? then e.estimate
    else e.causalEstimate
  }

  /** A line's contribution in the analysis and visuals tabs: lines with "Mean value:" only. */
  function MeanValueHit(parse: string -> Option<real>): string -> Option<real> {
    line => Hit(line, "Mean value:", parse)
  }

  /** The line carries the "ATE:" marker. */
  predicate AteLine(line: string) {
    Contains(line, "ATE:")
  }

  /** A line's contribution in `_run_estimator`: lines with "Mean value:" or "ATE:". */
  function EstimateLineHit(parse: string -> Option<real>): string -> Option<real> {
    line => if AteLine(line) then FieldValue(line, parse) else MeanValueHit(parse)(line)
  }

  /** The estimate value from the printed text: the first line that converts. */
  function TextValue(text: string, parse: string -> Option<real>): (r: PyValue)
    ensures r.PyNone? || r.PyNum?
    ensures r.PyNone? <==> NoHitIn(Split(text, '\n'), 0, |Split(text, '\n')|, EstimateLineHit(parse))
    ensures r.PyNum? ==>
      exists i :: 0 <= i < |Split(text, '\n')| && EstimateLineHit(parse)(Split(text, '\n')[i]) == Some(r.x)
        && NoHitIn(Split(text, '\n'), 0, i, EstimateLineHit(parse))
  {
    match FirstHit(Split(text, '\n'), EstimateLineHit(parse))
    case Some(x) => PyNum(x)
    case None => PyNone
  }

  /**
   * The value extraction of `_run_estimator`: the first present attribute
   * among value, estimate and causal_estimate, taken as it is; only if that
   * is None (or no attribute is present) the printed text is scanned.
   */
  function ExtractValue(e: EstimateObject, parse: string -> Option<real>): (r: PyValue)
    ensures e.value.Has? && e.value.v != PyNone ==> r == e.value.v
    ensures e.value.Has? && e.value.v == PyNone ==> r == TextValue(e.text, parse)
    ensures e.value.Missing? && e.estimate.Has? && e.estimate.v != PyNone ==> r == e.estimate.v
    ensures e.value.Missing? && e.estimate.Missing? && e.causalEstimate.Has? && e.causalEstimate.v != PyNone
      ==> r == e.causalEstimate.v
    ensures e.value.Missing? && e.estimate.Missing? && e.causalEstimate.Missing? ==> r == TextValue(e.text, parse)
    ensures r.PyNone? ==> TextValue(e.text, parse).PyNone?
    ensures FirstPresent(e).Has? && FirstPresent(e).v != PyNone ==> r == FirstPresent(e).v
    ensures FirstPresent(e).Missing? || FirstPresent(e).v == PyNone ==> r == TextValue(e.text, parse)
  {
    var first := FirstPresent(e);
    var v := if first.Has? then first.v else PyNone;
    if v != PyNone then v else TextValue(e.text, parse)
  }

  /**
   * A present `value` attribute holding None hides a later attribute's
   * number: the value then comes from the text.
   */
  lemma PresentNoneShadowsLaterAttributes(e: EstimateObject, parse: string -> Option<real>, x: real)
    requires e.value == Has(PyNone) && e.estimate == Has(PyNum(x))
    ensures ExtractValue(e, parse) == TextValue(e.text, parse)
  {
  }

  /** The analysis and visuals tabs re-read the value from the printed estimate. */
  function AnalysisValue(text: string, parse: string -> Option<real>): (r: Option<real>)
    ensures r.None? <==> NoHitIn(Split(text, '\n'), 0, |Split(text, '\n')|, MeanValueHit(parse))
    ensures r.Some? ==>
      exists i :: 0 <= i < |Split(text, '\n')| && MeanValueHit(parse)(Split(text, '\n')[i]) == r && NoHitIn(Split(text, '\n'), 0, i, MeanValueHit(parse))
  {
    FirstHit(Split(text, '\n'), MeanValueHit(parse))
  }

  /**
   * Without any "ATE:" line both text scans take the same line, so the
   * tabs show the value the estimator run found in the text.
   */
  lemma AnalysisValueMatchesWithoutAteLines(text: string, parse: string -> Option<real>)
    requires forall line :: line in Split(text, '\n') ==> !AteLine(line)
    ensures TextValue(text, parse) == (match AnalysisValue(text, parse)
                                       case Some(x) => PyNum(x)
                                       case None => PyNone)
  {
    var lines := Split(text, '\n');
    forall i | 0 <= i < |lines|
      ensures EstimateLineHit(parse)(lines[i]) == MeanValueHit(parse)(lines[i])
    {
      assert lines[i] in lines;
    }
    FirstHitAgrees(lines, EstimateLineHit(parse), MeanValueHit(parse));
  }

  /** `_significant`: None without both bounds, else whether the interval excludes zero. */
  function Significant(lo: Option<real>, hi: Option<real>): (r: Option<bool>)
    ensures r.None? <==> lo.None? || hi.None?
    ensures r.Some? ==> (r.value <==> hi.value < 0.0 || 0.0 < lo.value)
  {
    if lo.None? || hi.None? then None
    else Some(!(lo.value <= 0.0 && 0.0 <= hi.value))
  }

  datatype Sign = Positive | Negative

  /** The closing remark of the narrative. */
  datatype Note = NoInterval | IncludesZero | Increases | Decreases

  datatype EstimateReading = EstimateReading(sign: Sign, note: Note)

  /**
   * `_interpret_estimate`, as a classification: the sign (zero counts as
   * negative) and the remark chosen for the interval.
   */
  function InterpretEstimate(v: real, lo: Option<real>, hi: Option<real>): (r: EstimateReading)
    ensures r.sign == Positive <==> v > 0.0
    ensures r.note == NoInterval <==> lo.None? || hi.None?
    ensures r.note == IncludesZero <==> lo.Some? && hi.Some? && lo.value < 0.0 < hi.value
    ensures r.note == Increases ==> v > 0.0
    ensures r.note == Decreases ==> v <= 0.0
  {
    var sign := if v > 0.0 then Positive else Negative;
    if lo.None? || hi.None? then EstimateReading(sign, NoInterval)
    else if lo.value < 0.0 < hi.value then EstimateReading(sign, IncludesZero)
    else if v > 0.0 then EstimateReading(sign, Increases)
    else EstimateReading(sign, Decreases)
  }

  /** The "includes zero" warning is only given for intervals the table marks not significant. */
  lemma WarningImpliesNotSignificant(v: real, lo: Option<real>, hi: Option<real>)
    requires InterpretEstimate(v, lo, hi).note == IncludesZero
    ensures Significant(lo, hi) == Some(false)
  {
  }

  /**
   * The two tests disagree exactly on intervals with a bound at zero: such an
   * interval is "not significant" in the table yet draws no warning.
   */
  lemma BoundaryGap(v: real, lo: Option<real>, hi: Option<real>)
    ensures (Significant(lo, hi) == Some(false) && InterpretEstimate(v, lo, hi).note != IncludesZero)
      <==> lo.Some? && hi.Some? && lo.value <= 0.0 <= hi.value && (lo.value == 0.0 || hi.value == 0.0)
  {
  }

  /** One row of the estimator comparison table. */
  datatype Row = Row(
    ate: PyValue,
    ciLower: Option<real>,
    ciUpper: Option<real>,
    significant: Option<bool>,
    refuteNew: Option<real>,
    refuteP: Option<real>,
    deltaPct: Option<real>,
    failed: bool)

  /**
   * A row of `_run_estimators_comparison`. `est` is None when estimation
   * raised; `refuteText` is None when the refuter raised. A value that is
   * neither None nor a number makes the delta arithmetic raise, which the
   * refutation handler turns into empty refutation cells.
   */
  function ComparisonRow(est: Option<EstimateObject>, refuteText: Option<string>, parse: string -> Option<real>): (r: Row)
    ensures r.failed <==> est.None?
    ensures r.ciLower.Some? <==> r.ciUpper.Some?
    ensures r.significant == Significant(r.ciLower, r.ciUpper)
    ensures refuteText.None? ==> r.refuteNew.None? && r.refuteP.None? && r.deltaPct.None?
    ensures r.deltaPct.Some? ==> r.ate.PyNum? && r.ate.x != 0.0 && r.refuteNew.Some?
    ensures est.None? ==> r == Row(PyNone, None, None, None, None, None, None, true)
    ensures est.Some? ==> r.ate == ExtractValue(est.value, parse)
    ensures est.Some? ==> var ci := GetConfidenceIntervals(est.value, parse);
      && (ci.None? ==> r.ciLower.None? && r.ciUpper.None?)
      && (ci.Some? ==> r.ciLower == Some(ci.value.0) && r.ciUpper == Some(ci.value.1))
    ensures est.Some? && refuteText.Some? && !r.ate.PyNum? && !r.ate.PyNone? ==>
      var s := Refutation.ScanRefutation(Split(refuteText.value, '\n'), parse);
      && r.deltaPct.None?
      && (s.newEffect.Some? ==> r.refuteNew.None? && r.refuteP.None?)
      && (s.newEffect.None? ==> r.refuteNew.None? && r.refuteP == s.pValue)
  {
    match est
    case None => Row(PyNone, None, None, None, None, None, None, true)
    case Some(e) =>
      var ci := GetConfidenceIntervals(e, parse);
      var lo := if ci.Some? then Some(ci.value.0) else None;
      var hi := if ci.Some? then Some(ci.value.1) else None;
      var value := ExtractValue(e, parse);
      var cells :=
        match refuteText
        case None => Refutation.Columns(None, None, None)
        case Some(t) =>
          var s := Refutation.ScanRefutation(Split(t, '\n'), parse);
          match value
          case PyNone => Refutation.Columns(s.newEffect, s.pValue, None)
          case PyNum(x) => Refutation.Columns(s.newEffect, s.pValue, Refutation.DeltaPct(Some(x), s.newEffect))
          case _ =>
            if s.newEffect.Some? then Refutation.Columns(None, None, None)
            else Refutation.Columns(s.newEffect, s.pValue, None);
      Row(value, lo, hi, Significant(lo, hi), cells.newEffect, cells.pValue, cells.deltaPct, false)
  }

  /**
   * For an estimate whose value is a number or None, the row's cells are the
   * extracted value, the interval lookup's bounds and the shared refutation
   * reading, with the value as the original estimate.
   */
  lemma ComparisonRowAgrees(e: EstimateObject, t: string, parse: string -> Option<real>)
    requires ExtractValue(e, parse).PyNum? || ExtractValue(e, parse).PyNone?
    ensures var r := ComparisonRow(Some(e), Some(t), parse);
      var v := ExtractValue(e, parse);
      var ci := GetConfidenceIntervals(e, parse);
      var c := Refutation.RefutationColumns(t, if v.PyNum? then Some(v.x) else None, parse);
      && r.ate == v && !r.failed
      && (ci.None? ==> r.ciLower.None? && r.ciUpper.None?)
      && (ci.Some? ==> r.ciLower == Some(ci.value.0) && r.ciUpper == Some(ci.value.1))
      && r.refuteNew == c.newEffect && r.refuteP == c.pValue && r.deltaPct == c.deltaPct
  {
  }
}

=== FILE: line_scan.dfy ===
/**
 * Scraping numbers out of the causal-inference library's printed output.
 * The text is split into lines; a line whose marker test passes contributes
 * `float(line.split(':')[-1].strip())` when that conversion succeeds. The
 * float conversion is a parameter `parse`, defined for some strings only.
 * The scans themselves are stated over any per-line contribution `hit`.
 */
module LineScan {
  import opened Optional
  import opened Text

  /**
   * `float(line.split(':')[-1].strip())`, None where the conversion raises:
   * the stripped text after the last colon, or the whole stripped line when
   * it has no colon.
   */
  function FieldValue(line: string, parse: string -> Option<real>): (r: Option<real>)
    ensures ':' !in line ==> r == parse(Strip(line))
    ensures forall k :: 0 <= k < |line| && line[k] == ':' && ':' !in line[k + 1..] ==>
      r == parse(Strip(line[k + 1..]))
  {
    var field := LastField(line, ':');
    forall k | 0 <= k < |line| && line[k] == ':' && ':' !in line[k + 1..]
      ensures field == line[k + 1..]
    {
      LastFieldAfter(line, k, field);
    }
    parse(Strip(field))
  }

  /** A suffix without colons, preceded by a colon or starting the line, is the one after colon k. */
  lemma LastFieldAfter(line: string, k: nat, field: string)
    requires k < |line| && line[k] == ':' && ':' !in line[k + 1..]
    requires ':' !in field && |field| <= |line| && field == line[|line| - |field|..]
    requires |field| < |line| ==> line[|line| - |field| - 1] == ':'
    ensures field == line[k + 1..]
  {
  }

  /** What one line contributes: its field value when it contains `marker`, nothing otherwise. */
  function Hit(line: string, marker: string, parse: string -> Option<real>): (r: Option<real>)
    ensures r.Some? ==> Contains(line, marker)
    ensures Contains(line, marker) ==> r == FieldValue(line, parse)
  {
    if Contains(line, marker) then FieldValue(line, parse) else None
  }

  /** No line with index in [from, to) contributes a value. */
  predicate NoHitIn(lines: seq<string>, from: int, to: int, hit: string -> Option<real>)
    requires 0 <= from && to <= |lines|
  {
    forall j :: from <= j < to ==> hit(lines[j]).None?
  }

  /**
   * A loop over the lines without `break`: each hit overwrites the previous
   * one and a failed conversion keeps it, so the last hit wins.
   */
  function LastHit(lines: seq<string>, hit: string -> Option<real>): (r: Option<real>)
    ensures r.None? <==> NoHitIn(lines, 0, |lines|, hit)
    ensures r.Some? ==>
      exists i :: 0 <= i < |lines| && hit(lines[i]) == r && NoHitIn(lines, i + 1, |lines|, hit)
    decreases |lines|
  {
    if lines == [] then None
    else
      var n := |lines| - 1;
      var init := lines[..n];
      var earlier := LastHit(init, hit);
      var here := hit(lines[n]);
      if here.Some? then
        assert NoHitIn(lines, n + 1, |lines|, hit);
        here
      else
        assert forall j :: 0 <= j < n ==> init[j] == lines[j];
        if earlier.Some? then
          var i :| 0 <= i < n && hit(init[i]) == earlier && NoHitIn(init, i + 1, n, hit);
          assert NoHitIn(lines, i + 1, |lines|, hit);
          earlier
        else
          assert NoHitIn(lines, 0, |lines|, hit);
          earlier
  }

  /** A loop over the lines that `break`s after the first successful conversion. */
  function FirstHit(lines: seq<string>, hit: string -> Option<real>): (r: Option<real>)
    ensures r.None? <==> NoHitIn(lines, 0, |lines|, hit)
    ensures r.Some? ==>
      exists i :: 0 <= i < |lines| && hit(lines[i]) == r && NoHitIn(lines, 0, i, hit)
    decreases |lines|
  {
    if lines == [] then None
    else
      var here := hit(lines[0]);
      if here.Some? then
        assert NoHitIn(lines, 0, 0, hit);
        here
      else
        var later := FirstHit(lines[1..], hit);
        assert forall j :: 1 <= j < |lines| ==> lines[1..][j - 1] == lines[j];
        if later.Some? then
          var i :| 0 <= i < |lines| - 1 && hit(lines[1..][i]) == later && NoHitIn(lines[1..], 0, i, hit);
          assert NoHitIn(lines, 0, i + 1, hit);
          later
        else
          assert NoHitIn(lines, 0, |lines|, hit);
          later
  }

  /** Two per-line contributions that agree on every line give the same first hit. */
  lemma {:induction false} FirstHitAgrees(lines: seq<string>, h1: string -> Option<real>, h2: string -> Option<real>)
    requires forall i :: 0 <= i < |lines| ==> h1(lines[i]) == h2(lines[i])
    ensures FirstHit(lines, h1) == FirstHit(lines, h2)
    decreases |lines|
  {
    if lines != [] {
      FirstHitAgrees(lines[1..], h1, h2);
    }
  }
}

=== FILE: optional.dfy ===
/** The Some/None wrapper used for Python's `Optional[...]` values and `None` results. */
module Optional {

  datatype Option<+T> = None | Some(value: T)
}

=== FILE: refutation.dfy ===
/**
 * Reading a refutation result from the library's printed output
 * (`_interpret_refutation`, and the same scanning loop in the estimator
 * comparison and the refutation summary, app.py).
 */
module Refutation {
  import opened Optional
  import opened Text
  import opened LineScan

  /** A line's contribution to the new effect: lines containing "New effect:". */
  function NewEffectHit(parse: string -> Option<real>): string -> Option<real> {
    line => Hit(line, "New effect:", parse)
  }

  /** A line's contribution to the p value: lines containing "p value:". */
  function PValueHit(parse: string -> Option<real>): string -> Option<real> {
    line => Hit(line, "p value:", parse)
  }

  datatype Scraped = Scraped(newEffect: Option<real>, pValue: Option<real>)

  /**
   * The single loop that tests every line for both markers. Each field
   * evolves as an independent last-hit scan.
   */
  function ScanRefutation(lines: seq<string>, parse: string -> Option<real>): (r: Scraped)
    ensures r.newEffect == LastHit(lines, NewEffectHit(parse))
    ensures r.pValue == LastHit(lines, PValueHit(parse))
    decreases |lines|
  {
    if lines == [] then Scraped(None, None)
    else
      var before := ScanRefutation(lines[..|lines| - 1], parse);
      var line := lines[|lines| - 1];
      var effect := NewEffectHit(parse)(line);
      var p := PValueHit(parse)(line);
      Scraped(if effect.Some? then effect else before.newEffect, if p.Some? then p else before.pValue)
  }

  function Abs(x: real): real {
    if x < 0.0 then -x else x
  }

  /** `abs((new - original) / original * 100)`. */
  function RelativeChangePct(newEffect: real, original: real): (pct: real)
    requires original != 0.0
    ensures pct >= 0.0
    ensures pct * Abs(original) == Abs(newEffect - original) * 100.0
  {
    var q := (newEffect - original) / original;
    assert q * original == newEffect - original;
    Abs(q * 100.0)
  }

  /** What the refutation narrative reports. */
  datatype Reading = CouldNotParse | Parsed(newEffect: real, pValue: real, changePct: real)

  /**
   * `_interpret_refutation` up to the text it formats: "Could not parse"
   * unless both the new effect and the p value were found; the change is a
   * percentage of the original estimate, and 0 when the original is 0.
   */
  function InterpretRefutation(text: string, original: real, parse: string -> Option<real>): (r: Reading)
    ensures var s := ScanRefutation(Split(text, '\n'), parse);
      r.CouldNotParse? <==> s.newEffect.None? || s.pValue.None?
    ensures var s := ScanRefutation(Split(text, '\n'), parse);
      r.Parsed? ==> s.newEffect == Some(r.newEffect) && s.pValue == Some(r.pValue)
    ensures r.Parsed? && original == 0.0 ==> r.changePct == 0.0
    ensures r.Parsed? && original != 0.0 ==> r.changePct == RelativeChangePct(r.newEffect, original)
  {
    var s := ScanRefutation(Split(text, '\n'), parse);
    if s.newEffect.None? || s.pValue.None? then CouldNotParse
    else
      var change := if original != 0.0 then RelativeChangePct(s.newEffect.value, original) else 0.0;
      Parsed(s.newEffect.value, s.pValue.value, change)
  }

  /** The "Delta %" / "Change %" table cell: None without a nonzero original or a new effect. */
  function DeltaPct(original: Option<real>, newEffect: Option<real>): (r: Option<real>)
    ensures r.None? <==> original.None? || newEffect.None? || original.value == 0.0
    ensures r.Some? ==> r.value == RelativeChangePct(newEffect.value, original.value)
  {
    if original.Some? && newEffect.Some? && original.value != 0.0 then
      Some(RelativeChangePct(newEffect.value, original.value))
    else None
  }

  /** The refutation cells of one table row: new effect, p value, delta. */
  datatype Columns = Columns(newEffect: Option<real>, pValue: Option<real>, deltaPct: Option<real>)

  /**
   * The comparison-table and summary-table reading: each field as found,
   * even when the other is missing, and a delta only for a nonzero original.
   */
  function RefutationColumns(text: string, original: Option<real>, parse: string -> Option<real>): (r: Columns)
    ensures r.newEffect == LastHit(Split(text, '\n'), NewEffectHit(parse))
    ensures r.pValue == LastHit(Split(text, '\n'), PValueHit(parse))
    ensures r.deltaPct.Some? <==> original.Some? && original.value != 0.0 && r.newEffect.Some?
    ensures r.deltaPct.Some? ==> r.deltaPct.value == RelativeChangePct(r.newEffect.value, original.value)
  {
    var s := ScanRefutation(Split(text, '\n'), parse);
    Columns(s.newEffect, s.pValue, DeltaPct(original, s.newEffect))
  }

  /**
   * The narrative and the tables agree on the change for a nonzero original;
   * for a zero original the narrative reports 0% while the tables leave the
   * cell empty.
   */
  lemma NarrativeVersusTable(text: string, original: real, parse: string -> Option<real>)
    requires InterpretRefutation(text, original, parse).Parsed?
    ensures var r := InterpretRefutation(text, original, parse);
      var c := RefutationColumns(text, Some(original), parse);
      && c.newEffect == Some(r.newEffect)
      && (original != 0.0 ==> c.deltaPct == Some(r.changePct))
      && (original == 0.0 ==> r.changePct == 0.0 && c.deltaPct.None?)
  {
  }
}

=== FILE: selection.dfy ===
/**
 * Sanitising the stored treatment / outcome / confounder choice against the
 * columns of the loaded table before the selection widgets are drawn
 * (`main`, app.py). A stored treatment or outcome that is not a column is
 * replaced by a default column; stored confounders are filtered, in order.
 */
module Selection {
  import opened Optional
  import CausalGraph

  /** What the session holds before sanitising; None is "nothing chosen yet". */
  datatype Stored = Stored(treatment: Option<string>, outcome: Option<string>, confounders: seq<string>)

  /** A sanitised choice. */
  datatype Roles = Roles(treatment: string, outcome: string, confounders: seq<string>)

  /** `xs` is `ys` with some elements deleted, the rest kept in order. */
  predicate IsSubsequence<T(==)>(xs: seq<T>, ys: seq<T>)
    decreases |ys|
  {
    if ys == [] then xs == []
    else (xs != [] && xs[0] == ys[0] && IsSubsequence(xs[1..], ys[1..])) || IsSubsequence(xs, ys[1..])
  }

  /** A confounder may be kept: it is a column and is neither treatment nor outcome. */
  predicate Eligible(c: string, cols: seq<string>, t: string, o: string) {
    c in cols && c != t && c != o
  }

  /** `[c for c in xs if c in cols and c not in {t, o}]`. */
  function KeepEligible(xs: seq<string>, cols: seq<string>, t: string, o: string): (r: seq<string>)
    ensures IsSubsequence(r, xs)
    ensures forall c :: c in r ==> Eligible(c, cols, t, o)
    ensures forall c :: Eligible(c, cols, t, o) ==> multiset(r)[c] == multiset(xs)[c]
    decreases |xs|
  {
    if xs == [] then []
    else
      var rest := KeepEligible(xs[1..], cols, t, o);
      assert xs == [xs[0]] + xs[1..];
      if Eligible(xs[0], cols, t, o) then
        assert ([xs[0]] + rest)[1..] == rest;
        [xs[0]] + rest
      else rest
  }

  /** The confounder choices offered: the columns other than treatment and outcome, in column order. */
  function ConfounderOptions(cols: seq<string>, t: string, o: string): (r: seq<string>)
    ensures IsSubsequence(r, cols)
    ensures forall c :: c in r <==> c in cols && c != t && c != o
    ensures forall c :: Eligible(c, cols, t, o) ==> multiset(r)[c] == multiset(cols)[c]
  {
    var r := KeepEligible(cols, cols, t, o);
    assert forall c :: c in cols && c != t && c != o ==> multiset(r)[c] > 0;
    r
  }

  /** The stored value if it names a column, otherwise the default column. */
  function OrDefault(stored: Option<string>, cols: seq<string>, default: string): string {
    if stored.Some? && stored.value in cols then stored.value else default
  }

  /**
   * None when the table has fewer than two columns (the page stops there);
   * otherwise an invalid treatment becomes the second column, an invalid
   * outcome the first, and the confounders keep only eligible entries.
   */
  function Sanitise(cols: seq<string>, s: Stored): (r: Option<Roles>)
    ensures r.None? <==> |cols| < 2
    ensures r.Some? ==> r.value.treatment in cols && r.value.outcome in cols
    ensures r.Some? && s.treatment.Some? && s.treatment.value in cols ==> r.value.treatment == s.treatment.value
    ensures r.Some? && !(s.treatment.Some? && s.treatment.value in cols) ==> r.value.treatment == cols[1]
    ensures r.Some? && s.outcome.Some? && s.outcome.value in cols ==> r.value.outcome == s.outcome.value
    ensures r.Some? && !(s.outcome.Some? && s.outcome.value in cols) ==> r.value.outcome == cols[0]
    ensures r.Some? ==> IsSubsequence(r.value.confounders, s.confounders)
    ensures r.Some? ==> forall c ::
      (c in r.value.confounders <==> c in s.confounders && Eligible(c, cols, r.value.treatment, r.value.outcome))
    ensures r.Some? ==> forall c :: Eligible(c, cols, r.value.treatment, r.value.outcome) ==>
      multiset(r.value.confounders)[c] == multiset(s.confounders)[c]
  {
    if |cols| < 2 then None
    else
      var t := OrDefault(s.treatment, cols, cols[1]);
      var o := OrDefault(s.outcome, cols, cols[0]);
      var kept := KeepEligible(s.confounders, cols, t, o);
      assert forall c :: c in s.confounders && Eligible(c, cols, t, o) ==> multiset(kept)[c] > 0;
      Some(Roles(t, o, kept))
  }

  /** Filtering an already filtered list changes nothing. */
  lemma {:induction false} KeepEligibleIdempotent(xs: seq<string>, cols: seq<string>, t: string, o: string)
    ensures KeepEligible(KeepEligible(xs, cols, t, o), cols, t, o) == KeepEligible(xs, cols, t, o)
    decreases |xs|
  {
    if xs != [] {
      KeepEligibleIdempotent(xs[1..], cols, t, o);
      var rest := KeepEligible(xs[1..], cols, t, o);
      if Eligible(xs[0], cols, t, o) {
        assert ([xs[0]] + rest)[1..] == rest;
      }
    }
  }

  /** Sanitising a sanitised choice is a fixed point. */
  lemma SanitiseIdempotent(cols: seq<string>, s: Stored)
    requires Sanitise(cols, s).Some?
    ensures var r := Sanitise(cols, s).value;
      Sanitise(cols, Stored(Some(r.treatment), Some(r.outcome), r.confounders)) == Some(r)
  {
    var r := Sanitise(cols, s).value;
    KeepEligibleIdempotent(s.confounders, cols, r.treatment, r.outcome);
  }

  /** Every sanitised confounder is among the options the multiselect offers. */
  lemma SanitisedWithinOptions(cols: seq<string>, s: Stored)
    requires Sanitise(cols, s).Some?
    ensures var r := Sanitise(cols, s).value;
      forall c :: c in r.confounders ==> c in ConfounderOptions(cols, r.treatment, r.outcome)
  {
  }

  /**
   * When treatment and outcome end up distinct, the graph built from the
   * sanitised choice is acyclic.
   */
  lemma SanitisedGraphAcyclic(cols: seq<string>, s: Stored)
    requires Sanitise(cols, s).Some?
    requires Sanitise(cols, s).value.treatment != Sanitise(cols, s).value.outcome
    ensures var r := Sanitise(cols, s).value;
      CausalGraph.Acyclic(CausalGraph.BuildGraph(r.treatment, r.outcome, r.confounders))
  {
    var r := Sanitise(cols, s).value;
    CausalGraph.BuildGraphAcyclicIff(r.treatment, r.outcome, r.confounders);
  }

  /**
   * A valid stored treatment equal to the first column, together with an
   * invalid outcome, gives the same column for both roles.
   */
  lemma RolesMayCoincide(a: string, b: string, junk: string)
    requires a != b && junk != a && junk != b
    ensures Sanitise([a, b], Stored(Some(a), Some(junk), [])) == Some(Roles(a, a, []))
  {
  }
}

=== FILE: sheet_link.dfy ===
/**
 * Normalisation of a pasted Google Sheets link into its CSV-export URL
 * (`_convert_google_sheet_to_csv_url`, app.py).
 *
 * The link is searched with two regular expressions:
 *   `docs.google.com/spreadsheets/d/([a-zA-Z0-9-_]+)` and `gid=(\d+)`.
 * Python's `re.search` reports the leftmost position where the whole pattern
 * matches, and a trailing greedy `+` then takes the longest run, so each search
 * is modelled as "leftmost position with a match, then the maximal run".
 * The two dots of the first pattern are unescaped and therefore match any
 * character except a newline.
 */
module SheetLink {
  import opened Optional
  import opened Text

  /** The first regular expression without its capture group; `.` is a wildcard. */
  const SheetPattern: string := "docs.google.com/spreadsheets/d/"
  const GidKey: string := "gid="
  const ExportHead: string := "https://" + SheetPattern
  const ExportMid: string := "/export?format=csv&gid="
  const DefaultGid: string := "0"

  /** The character class `[a-zA-Z0-9-_]`. */
  predicate IsIdChar(c: char) {
    'a' <= c <= 'z' || 'A' <= c <= 'Z' || '0' <= c <= '9' || c == '-' || c == '_'
  }

  /** `\d`, restricted to ASCII digits. */
  predicate IsDigit(c: char) {
    '0' <= c <= '9'
  }

  /** One pattern character against one input character: `.` is any character but a newline. */
  predicate PatternAccepts(p: char, c: char) {
    if p == '.' then c != '\n' else c == p
  }

  /** The two regular expressions searched for in a link. */
  datatype Pattern = SheetUrl | GidParam

  /** The literal part of each pattern, before its capture group. */
  function Key(pat: Pattern): string {
    match pat
    case SheetUrl => SheetPattern
    case GidParam => GidKey
  }

  /** The character class repeated by each capture group's `+`. */
  function RunClass(pat: Pattern): char -> bool {
    match pat
    case SheetUrl => IsIdChar
    case GidParam => IsDigit
  }

  /** The whole pattern matches at `i`: its literal part, then at least one run character. */
  predicate MatchAt(pat: Pattern, s: string, i: nat) {
    var key := Key(pat);
    && i + |key| < |s|
    && (forall k :: 0 <= k < |key| ==> PatternAccepts(key[k], s[i + k]))
    && RunClass(pat)(s[i + |key|])
  }

  /** Every character of `s` is in the id character class. */
  predicate AllIdChars(s: string) {
    forall k :: 0 <= k < |s| ==> IsIdChar(s[k])
  }

  predicate AllDigits(s: string) {
    forall k :: 0 <= k < |s| ==> IsDigit(s[k])
  }

  /** `i` is where `re.search` reports its match: a match, and none further left. */
  predicate LeftmostMatch(pat: Pattern, s: string, i: nat) {
    MatchAt(pat, s, i) && forall j :: 0 <= j < i ==> !MatchAt(pat, s, j)
  }

  /** `s[from..]` begins with `run`, a maximal run of characters satisfying `p`. */
  predicate MaximalRunAt(s: string, from: nat, run: string, p: char -> bool) {
    && from + |run| <= |s|
    && s[from..from + |run|] == run
    && (forall k :: 0 <= k < |run| ==> p(run[k]))
    && (from + |run| == |s| || !p(s[from + |run|]))
  }

  /** The first position at or after `from` where the pattern matches. */
  function FirstMatch(pat: Pattern, s: string, from: nat): (r: Option<nat>)
    ensures r.Some? ==> from <= r.value && MatchAt(pat, s, r.value)
    ensures r.Some? ==> forall j :: from <= j < r.value ==> !MatchAt(pat, s, j)
    ensures r.None? ==> forall j: nat :: from <= j ==> !MatchAt(pat, s, j)
    decreases |s| - from
  {
    if from >= |s| then None
    else if MatchAt(pat, s, from) then Some(from)
    else FirstMatch(pat, s, from + 1)
  }

  /**
   * `re.search(pattern, s)` followed by `.group(1)`: the leftmost match, and
   * the longest run the greedy `+` takes there.
   */
  function Search(pat: Pattern, s: string): (r: Option<string>)
    ensures r.None? <==> forall i: nat :: !MatchAt(pat, s, i)
    ensures r.Some? ==> exists i: nat ::
      LeftmostMatch(pat, s, i) && MaximalRunAt(s, i + |Key(pat)|, r.value, RunClass(pat))
    ensures r.Some? ==> |r.value| > 0
  {
    match FirstMatch(pat, s, 0)
    case None => None
    case Some(i) =>
      var start := i + |Key(pat)|;
      RunEndIsMaximal(s, start, RunClass(pat));
      assert LeftmostMatch(pat, s, i);
      Some(s[start..RunEnd(s, start, RunClass(pat))])
  }

  /** The run `RunEnd` delimits is a maximal run. */
  lemma RunEndIsMaximal(s: string, start: nat, p: char -> bool)
    requires start <= |s|
    ensures MaximalRunAt(s, start, s[start..RunEnd(s, start, p)], p)
  {
    var run := s[start..RunEnd(s, start, p)];
    assert start + |run| == RunEnd(s, start, p);
  }

  /** The sheet id captured by the first regular expression, or None without a match. */
  function SheetId(link: string): (r: Option<string>)
    ensures r.None? <==> forall i: nat :: !MatchAt(SheetUrl, link, i)
    ensures r.Some? ==> exists i: nat ::
      LeftmostMatch(SheetUrl, link, i) && MaximalRunAt(link, i + |SheetPattern|, r.value, IsIdChar)
    ensures r.Some? ==> |r.value| > 0 && AllIdChars(r.value)
  {
    Search(SheetUrl, link)
  }

  /** The digits captured by `gid=(\d+)`, or "0" when the link has none. */
  function Gid(link: string): (r: string)
    ensures (forall i: nat :: !MatchAt(GidParam, link, i)) ==> r == DefaultGid
    ensures (exists i: nat :: MatchAt(GidParam, link, i)) ==> exists i: nat ::
      LeftmostMatch(GidParam, link, i) && MaximalRunAt(link, i + |GidKey|, r, IsDigit)
    ensures |r| > 0 && AllDigits(r)
  {
    match Search(GidParam, link)
    case None => DefaultGid
    case Some(gid) => gid
  }

  /** The CSV-export URL for a sheet id and a tab id: the fixed head, the id, the fixed middle, the tab id. */
  function ExportUrl(id: string, gid: string): (u: string)
    ensures |u| == |ExportHead| + |id| + |ExportMid| + |gid|
    ensures u[..|ExportHead|] == ExportHead
    ensures u[|ExportHead|..|ExportHead| + |id|] == id
    ensures u[|ExportHead| + |id|..|u| - |gid|] == ExportMid
    ensures u[|u| - |gid|..] == gid
  {
    ExportHead + id + ExportMid + gid
  }

  /**
   * `_convert_google_sheet_to_csv_url`: None for an empty link or a link
   * without a sheet match; otherwise the export URL built from the captured
   * sheet id and tab id.
   */
  function ConvertToCsvUrl(link: string): (r: Option<string>)
    ensures link == [] ==> r.None?
    ensures r.None? <==> forall i: nat :: !MatchAt(SheetUrl, link, i)
    ensures r.Some? ==> exists id, gid ::
      && r.value == ExportUrl(id, gid)
      && |id| > 0 && AllIdChars(id) && |gid| > 0 && AllDigits(gid)
    ensures r.Some? ==> exists i: nat, id ::
      && LeftmostMatch(SheetUrl, link, i) && MaximalRunAt(link, i + |SheetPattern|, id, IsIdChar)
      && r.value == ExportUrl(id, Gid(link))
  {
    if link == [] then None
    else
      match SheetId(link)
      case None => None
      case Some(id) => Some(ExportUrl(id, Gid(link)))
  }

  /** Two maximal runs of the same class from the same position are the same string. */
  lemma MaximalRunUnique(s: string, from: nat, r1: string, r2: string, p: char -> bool)
    requires MaximalRunAt(s, from, r1, p) && MaximalRunAt(s, from, r2, p)
    ensures r1 == r2
  {
    assert forall k :: from <= k < from + |r1| ==> s[k] == r1[k - from];
    assert forall k :: from <= k < from + |r2| ==> s[k] == r2[k - from];
    assert |r1| == |r2|;
  }

  /** Character facts about the fixed head of an export URL. */
  lemma ExportTextFacts()
    ensures forall j :: 0 <= j < 8 ==> ExportHead[j] != 'd'
    ensures forall k :: 0 <= k < |SheetPattern| ==> ExportHead[8 + k] == SheetPattern[k]
    ensures forall k :: 0 <= k < |SheetPattern| ==> PatternAccepts(SheetPattern[k], SheetPattern[k])
    ensures |ExportHead| == 39 && |SheetPattern| == 31
  {
  }

  /** Where "=" occurs in the fixed parts of an export URL. */
  lemma EqualsSignFacts()
    ensures forall k :: 0 <= k < |ExportHead| ==> ExportHead[k] != '='
    ensures forall t :: 0 <= t < 22 && ExportMid[t] == '=' ==> t == 14
    ensures |ExportMid| == 23 && ExportMid[11] == 'm'
    ensures GidKey[0] == 'g' && GidKey[3] == '='
  {
  }

  /** Where the pieces of an export URL sit inside it. */
  lemma ExportUrlLayout(id: string, gid: string)
    ensures var u := ExportUrl(id, gid);
      && |u| == |ExportHead| + |id| + |ExportMid| + |gid|
      && (forall k :: 0 <= k < |ExportHead| ==> u[k] == ExportHead[k])
      && (forall k :: 0 <= k < |id| ==> u[|ExportHead| + k] == id[k])
      && (forall k :: 0 <= k < |ExportMid| ==> u[|ExportHead| + |id| + k] == ExportMid[k])
      && (forall k :: 0 <= k < |gid| ==> u[|ExportHead| + |id| + |ExportMid| + k] == gid[k])
  {
  }

  /** The leftmost sheet match in an export URL is right after "https://". */
  lemma SheetMatchInExportUrl(id: string, gid: string)
    requires |id| > 0 && AllIdChars(id)
    ensures LeftmostMatch(SheetUrl, ExportUrl(id, gid), 8)
  {
    var u := ExportUrl(id, gid);
    ExportUrlLayout(id, gid);
    ExportTextFacts();
    assert u[|ExportHead|] == id[0];
    assert MatchAt(SheetUrl, u, 8);
    forall j | 0 <= j < 8
      ensures !MatchAt(SheetUrl, u, j)
    {
      assert !PatternAccepts(SheetPattern[0], u[j + 0]);
    }
  }

  /** The sheet id of an export URL is the id it was built from. */
  lemma SheetIdOfExportUrl(id: string, gid: string)
    requires |id| > 0 && AllIdChars(id)
    ensures SheetId(ExportUrl(id, gid)) == Some(id)
  {
    SheetMatchInExportUrl(id, gid);
    MidFacts();
    RunBeforeStop(ExportHead, id, ExportMid, gid, IsIdChar);
    SearchFinds(SheetUrl, ExportUrl(id, gid), 8, id);
  }

  /** A search whose leftmost match and maximal run are known returns that run. */
  lemma SearchFinds(pat: Pattern, s: string, i: nat, run: string)
    requires LeftmostMatch(pat, s, i) && MaximalRunAt(s, i + |Key(pat)|, run, RunClass(pat))
    ensures Search(pat, s) == Some(run)
  {
    var r := Search(pat, s);
    var i': nat :| LeftmostMatch(pat, s, i') && MaximalRunAt(s, i' + |Key(pat)|, r.value, RunClass(pat));
    assert i' == i;
    MaximalRunUnique(s, i + |Key(pat)|, r.value, run, RunClass(pat));
  }

  /** The lengths and the separator of the fixed parts of an export URL. */
  lemma MidFacts()
    ensures |ExportHead| == 39 && |SheetPattern| == 31 && |GidKey| == 4
    ensures |ExportMid| == 23 && !IsIdChar(ExportMid[0]) && ExportMid[19..] == GidKey
  {
  }

  /** A run of `p` characters followed by a character outside `p` is maximal. */
  lemma RunBeforeStop(a: string, b: string, m: string, g: string, p: char -> bool)
    requires forall k :: 0 <= k < |b| ==> p(b[k])
    requires |m| > 0 && !p(m[0])
    ensures MaximalRunAt(a + b + m + g, |a|, b, p)
  {
    var u := a + b + m + g;
    assert u[|a| + |b|] == m[0];
    assert u[|a|..|a| + |b|] == b;
  }

  /** A run of `p` characters at the very end of a string is maximal. */
  lemma RunAtEnd(a: string, b: string, p: char -> bool)
    requires forall k :: 0 <= k < |b| ==> p(b[k])
    ensures MaximalRunAt(a + b, |a|, b, p)
  {
    assert (a + b)[|a|..|a| + |b|] == b;
  }

  /** The leftmost "gid=" match of an export URL is the one placed just before the tab id. */
  lemma GidMatchInExportUrl(id: string, gid: string)
    requires AllIdChars(id) && |gid| > 0 && AllDigits(gid)
    ensures LeftmostMatch(GidParam, ExportUrl(id, gid), |ExportHead| + |id| + 19)
  {
    var u := ExportUrl(id, gid);
    var p := |ExportHead| + |id| + 19;
    MidFacts();
    SliceOfMiddle(ExportHead, id, ExportMid, gid, 19, 23);
    assert u[p..p + |GidKey|] == GidKey;
    forall k | 0 <= k < |GidKey|
      ensures PatternAccepts(GidKey[k], u[p + k])
    {
      assert u[p + k] == u[p..p + |GidKey|][k];
    }
    assert u[p + |GidKey|] == gid[0];
    forall j | 0 <= j < p
      ensures !MatchAt(GidParam, u, j)
    {
      NoGidKeyBefore(id, gid, j);
    }
  }

  /** A slice of the third part of `h + id + m + g`, located in the whole. */
  lemma SliceOfMiddle(h: string, id: string, m: string, g: string, from: nat, to: nat)
    requires from <= to <= |m|
    ensures (h + id + m + g)[|h| + |id| + from..|h| + |id| + to] == m[from..to]
  {
    var u := h + id + m + g;
    var base := |h| + |id|;
    forall k | 0 <= k < to - from
      ensures u[base + from..base + to][k] == m[from..to][k]
    {
      assert u[base + from + k] == m[from + k];
    }
  }

  /** The tab id of an export URL is the one it was built from. */
  lemma GidOfExportUrl(id: string, gid: string)
    requires AllIdChars(id) && |gid| > 0 && AllDigits(gid)
    ensures Gid(ExportUrl(id, gid)) == gid
  {
    GidMatchInExportUrl(id, gid);
    MidFacts();
    RunAtEnd(ExportHead + id + ExportMid, gid, IsDigit);
    SearchFinds(GidParam, ExportUrl(id, gid), |ExportHead| + |id| + 19, gid);
  }

  /** No "gid=" starts before the one the export URL appends. */
  lemma NoGidKeyBefore(id: string, gid: string, j: nat)
    requires AllIdChars(id)
    requires j < |ExportHead| + |id| + 19
    ensures !MatchAt(GidParam, ExportUrl(id, gid), j)
  {
    var u := ExportUrl(id, gid);
    EqualsSignFacts();
    NoKeyBeforeMid(ExportHead, id, ExportMid, gid, j);
    if u[j + 3] != '=' {
      assert !PatternAccepts(GidKey[3], u[j + 3]);
    } else {
      assert !PatternAccepts(GidKey[0], u[j + 0]);
    }
  }

  /**
   * In `h + id + m + g`, where "=" occurs neither in `h` nor in `id` and only
   * at offset 14 of `m`, three characters before any "=" up to the one in `m`
   * there is an "m".
   */
  lemma NoKeyBeforeMid(h: string, id: string, m: string, g: string, j: nat)
    requires forall k :: 0 <= k < |h| ==> h[k] != '='
    requires AllIdChars(id)
    requires |m| == 23 && m[11] == 'm'
    requires forall t :: 0 <= t < 22 && m[t] == '=' ==> t == 14
    requires j < |h| + |id| + 19
    ensures j + 3 < |h + id + m + g|
    ensures (h + id + m + g)[j + 3] != '=' || (h + id + m + g)[j] == 'm'
  {
    var u := h + id + m + g;
    var t := j + 3;
    var mid := |h| + |id|;
    if t < |h| {
      assert u[t] == h[t];
    } else if t < mid {
      assert u[t] == id[t - |h|];
    } else {
      assert u[t] == m[t - mid];
      if m[t - mid] == '=' {
        assert u[j] == m[11];
      }
    }
  }

  /** Converting an export URL gives back the same URL. */
  lemma ExportUrlIsFixedPoint(id: string, gid: string)
    requires |id| > 0 && AllIdChars(id) && |gid| > 0 && AllDigits(gid)
    ensures ConvertToCsvUrl(ExportUrl(id, gid)) == Some(ExportUrl(id, gid))
  {
    SheetIdOfExportUrl(id, gid);
    GidOfExportUrl(id, gid);
  }

  /** Normalisation is idempotent: a converted link converts to itself. */
  lemma ConvertIdempotent(link: string)
    requires ConvertToCsvUrl(link).Some?
    ensures ConvertToCsvUrl(ConvertToCsvUrl(link).value) == ConvertToCsvUrl(link)
  {
    var id, gid :| && ConvertToCsvUrl(link).value == ExportUrl(id, gid)
                   && |id| > 0 && AllIdChars(id) && |gid| > 0 && AllDigits(gid);
    ExportUrlIsFixedPoint(id, gid);
  }
}

=== FILE: synthetic.dfy ===
/**
 * The synthetic media-marketing generator (utils/synthetic.py) and the
 * form guard in front of it (app.py).
 *
 * Arithmetic is over the reals. The random generator is an infinite stream
 * of standard-normal draws read from a cursor: numpy's `normal(loc, scale,
 * size=n)` takes the next n draws z and yields loc + scale * z. `sin`,
 * `log1p` and pi are supplied by a `Numerics` record.
 */
module Synthetic {
  import opened Optional

  datatype Numerics = Numerics(pi: real, sin: real -> real, log1p: real -> real)

  /** A stream of standard-normal draws and the position of the next one. */
  datatype Rng = Rng(z: nat -> real, pos: nat)

  /** `rng.normal(loc, scale, size=n)`: n draws and the advanced generator. */
  function Normal(rng: Rng, loc: real, scale: real, n: nat): (r: (seq<real>, Rng))
    ensures |r.0| == n
    ensures r.1 == Rng(rng.z, rng.pos + n)
    ensures forall i :: 0 <= i < n ==> r.0[i] == loc + scale * rng.z(rng.pos + i)
  {
    (seq(n, (i: int) requires 0 <= i < n => loc + scale * rng.z(rng.pos + i)), Rng(rng.z, rng.pos + n))
  }

  const SeasonPeriod: real := 52.0

  /** `_seasonality_term`: half a sine wave of period 52 over the week index. */
  function Seasonality(num: Numerics, n: nat): (s: seq<real>)
    ensures |s| == n
  {
    seq(n, (i: int) => 0.5 * num.sin(2.0 * num.pi * (i as real) / SeasonPeriod))
  }

  function Zeros(n: nat): (s: seq<real>)
    ensures |s| == n && forall i :: 0 <= i < n ==> s[i] == 0.0
  {
    seq(n, (i: int) => 0.0)
  }

  /** `min()` of a non-empty array. */
  function Min(xs: seq<real>): (m: real)
    requires |xs| > 0
    ensures m in xs
    ensures forall i :: 0 <= i < |xs| ==> m <= xs[i]
  {
    if |xs| == 1 then xs[0]
    else
      var m := Min(xs[1..]);
      assert forall i :: 1 <= i < |xs| ==> xs[i] == xs[1..][i - 1];
      if xs[0] <= m then xs[0] else m
  }

  /** `np.clip(xs, 0, None)`. */
  function ClipBelowZero(xs: seq<real>): (ys: seq<real>)
    ensures |ys| == |xs|
    ensures forall i :: 0 <= i < |xs| ==> ys[i] == (if xs[i] < 0.0 then 0.0 else xs[i])
  {
    seq(|xs|, (i: int) requires 0 <= i < |xs| => if xs[i] < 0.0 then 0.0 else xs[i])
  }

  /**
   * The spend normalisation `clip(x - x.min() + 1, 0, None)`: the smallest
   * spend becomes exactly 1, every spend is at least 1, and all differences
   * between weeks are kept (the clip never bites).
   */
  function Shift(xs: seq<real>): (ys: seq<real>)
    requires |xs| > 0
    ensures |ys| == |xs|
    ensures forall i :: 0 <= i < |xs| ==> ys[i] >= 1.0
    ensures exists i :: 0 <= i < |xs| && ys[i] == 1.0
    ensures forall i, j :: 0 <= i < |xs| && 0 <= j < |xs| ==> ys[i] - ys[j] == xs[i] - xs[j]
  {
    var m := Min(xs);
    var raised := seq(|xs|, (i: int) requires 0 <= i < |xs| => xs[i] - m + 1.0);
    var ys := ClipBelowZero(raised);
    assert forall i :: 0 <= i < |xs| ==> ys[i] == raised[i];
    var k :| 0 <= k < |xs| && xs[k] == m;
    assert ys[k] == 1.0;
    ys
  }

  /** The confounded part of every channel's spend: 2 base + 3 seasonality - 0.03 price. */
  function Driver(base: seq<real>, season: seq<real>, price: seq<real>): (d: seq<real>)
    requires |season| == |base| && |price| == |base|
    ensures |d| == |base|
    ensures forall i :: 0 <= i < |d| ==> d[i] == 2.0 * base[i] + 3.0 * season[i] - 0.03 * price[i]
  {
    seq(|base|, (i: int) requires 0 <= i < |base| => 2.0 * base[i] + 3.0 * season[i] - 0.03 * price[i])
  }

  /**
   * One channel's spend column, with its unit-normal noise read from
   * position `at`: never below 1, exactly 1 in its cheapest week, and
   * differing between two weeks exactly as driver plus noise does.
   */
  function SpendColumn(driver: seq<real>, z: nat -> real, at: nat): (col: seq<real>)
    requires |driver| > 0
    ensures |col| == |driver|
    ensures forall i :: 0 <= i < |col| ==> col[i] >= 1.0
    ensures exists i :: 0 <= i < |col| && col[i] == 1.0
    ensures forall i, j :: 0 <= i < |col| && 0 <= j < |col| ==>
      col[i] - col[j] == (driver[i] + z(at + i)) - (driver[j] + z(at + j))
  {
    var noise := Normal(Rng(z, at), 0.0, 1.0, |driver|).0;
    var raw := seq(|driver|, (i: int) requires 0 <= i < |driver| => driver[i] + noise[i]);
    assert forall i :: 0 <= i < |driver| ==> raw[i] == driver[i] + z(at + i);
    Shift(raw)
  }

  /** The spend column for a given noise position, as the channel loop uses it. */
  function SpendColumnAt(driver: seq<real>, z: nat -> real): (column: nat -> seq<real>)
    requires |driver| > 0
  {
    (at: nat) => SpendColumn(driver, z, at)
  }

  /** Position j holds the last occurrence of its value in s. */
  predicate LastOccurrence(s: seq<string>, j: int)
    requires 0 <= j < |s|
  {
    forall k :: j < k < |s| ==> s[k] != s[j]
  }

  /**
   * The channel loop: each channel in turn draws n values of noise and
   * (over)writes its entry of the dictionary, so a repeated name keeps the
   * entry of its last occurrence. `column(at)` is the entry whose noise
   * starts at draw position `at`; the result carries the position after
   * the loop.
   */
  function SpendColumns<V>(chs: seq<string>, n: nat, column: nat -> V, at: nat, data: map<string, V>)
    : (r: (map<string, V>, nat))
    ensures forall c :: c in r.0 <==> c in data || c in chs
    decreases |chs|
  {
    if chs == [] then (data, at)
    else SpendColumns(chs[1..], n, column, at + n, data[chs[0] := column(at)])
  }

  /** The draw position of the j-th block of n draws starting at `at`. */
  function Block(at: nat, j: nat, n: nat): nat {
    at + j * n
  }

  lemma MulStep(at: nat, n: nat, j: nat)
    requires j >= 1
    ensures Block(at + n, j - 1, n) == Block(at, j, n)
  {
  }

  /** The loop consumes n draws per channel, listed or repeated. */
  lemma {:induction false} SpendColumnsCursor<V>(chs: seq<string>, n: nat, column: nat -> V, at: nat, data: map<string, V>)
    ensures SpendColumns(chs, n, column, at, data).1 == Block(at, |chs|, n)
    decreases |chs|
  {
    if chs != [] {
      SpendColumnsCursor(chs[1..], n, column, at + n, data[chs[0] := column(at)]);
      MulStep(at, n, |chs|);
    }
  }

  /** Entries for names not in the list are left as they were. */
  lemma {:induction false} SpendColumnsFrame<V>(chs: seq<string>, n: nat, column: nat -> V, at: nat, data: map<string, V>, c: string)
    requires c in data && c !in chs
    ensures SpendColumns(chs, n, column, at, data).0[c] == data[c]
    decreases |chs|
  {
    if chs != [] {
      assert c !in chs[1..];
      SpendColumnsFrame(chs[1..], n, column, at + n, data[chs[0] := column(at)], c);
    }
  }

  /**
   * A name's final entry is the one drawn at its last occurrence j,
   * from position at + j n onwards.
   */
  lemma {:induction false} SpendColumnsLast<V>(chs: seq<string>, n: nat, column: nat -> V, at: nat, data: map<string, V>, j: nat)
    requires j < |chs| && LastOccurrence(chs, j)
    ensures SpendColumns(chs, n, column, at, data).0[chs[j]] == column(Block(at, j, n))
    decreases |chs|
  {
    var data' := data[chs[0] := column(at)];
    if j == 0 {
      assert chs[0] !in chs[1..];
      SpendColumnsFrame(chs[1..], n, column, at + n, data', chs[0]);
    } else {
      assert chs[1..][j - 1] == chs[j];
      assert LastOccurrence(chs[1..], j - 1);
      SpendColumnsLast(chs[1..], n, column, at + n, data', j - 1);
      MulStep(at, n, j);
    }
  }

  /** The identity on draw positions: running the loop with it records where each entry was drawn. */
  function Position(at: nat): nat {
    at
  }

  /** `column` applied to every entry of a dictionary of positions. */
  function Columns<V>(positions: map<string, nat>, column: nat -> V): (m: map<string, V>)
    ensures m.Keys == positions.Keys
  {
    map c | c in positions :: column(positions[c])
  }

  /**
   * Running the loop over the columns themselves gives the same dictionary
   * as recording positions and building each column afterwards.
   */
  lemma {:induction false} SpendColumnsByPosition<V>(chs: seq<string>, n: nat, column: nat -> V, at: nat, positions: map<string, nat>)
    ensures SpendColumns(chs, n, column, at, Columns(positions, column)).0
         == Columns(SpendColumns(chs, n, Position, at, positions).0, column)
    decreases |chs|
  {
    if chs != [] {
      var positions' := positions[chs[0] := Position(at)];
      assert Columns(positions, column)[chs[0] := column(at)] == Columns(positions', column);
      SpendColumnsByPosition(chs[1..], n, column, at + n, positions');
    }
  }

  /** `sum(0.8 * log1p(data[ch]) for ch in channels)` at week i; a repeated channel counts each time. */
  function EffectAt(chs: seq<string>, data: map<string, seq<real>>, num: Numerics, i: nat): real
    requires forall c :: c in chs ==> c in data && i < |data[c]|
  {
    if chs == [] then 0.0
    else 0.8 * num.log1p(data[chs[0]][i]) + EffectAt(chs[1..], data, num, i)
  }

  /**
   * Python's `sum` adds left to right: the total over the channels is the
   * total over all but the last one plus the last one's term.
   */
  lemma {:induction false} EffectAtLast(chs: seq<string>, data: map<string, seq<real>>, num: Numerics, i: nat)
    requires chs != [] && forall c :: c in chs ==> c in data && i < |data[c]|
    ensures EffectAt(chs, data, num, i)
         == EffectAt(chs[..|chs| - 1], data, num, i) + 0.8 * num.log1p(data[chs[|chs| - 1]][i])
    decreases |chs|
  {
    if |chs| == 1 {
      assert chs[..0] == [] && chs[1..] == [];
    } else {
      var init := chs[..|chs| - 1];
      EffectAtLast(chs[1..], data, num, i);
      assert chs[1..][..|chs| - 2] == init[1..];
      assert init[0] == chs[0];
    }
  }

  // ----- the output table -----

  datatype Column = Column(name: string, values: seq<real>)

  /** A data frame: columns in order. */
  type Table = seq<Column>

  function Names(t: Table): (ns: seq<string>)
    ensures |ns| == |t|
  {
    if t == [] then [] else [t[0].name] + Names(t[1..])
  }

  predicate Distinct(s: seq<string>) {
    forall i, j :: 0 <= i < j < |s| ==> s[i] != s[j]
  }

  /** `df[name]`: the first column so named. */
  function Lookup(t: Table, name: string): (r: Option<seq<real>>)
    ensures r.Some? <==> name in Names(t)
  {
    if t == [] then None
    else if t[0].name == name then Some(t[0].values)
    else Lookup(t[1..], name)
  }

  /** `df[name] = v`: replaces an existing column in place, otherwise appends one. */
  function SetColumn(t: Table, name: string, v: seq<real>): (r: Table)
    ensures |r| == |t| || |r| == |t| + 1
  {
    if t == [] then [Column(name, v)]
    else if t[0].name == name then [Column(name, v)] + t[1..]
    else [t[0]] + SetColumn(t[1..], name, v)
  }

  /** The column order is kept; a new name goes last. */
  lemma {:induction false} SetColumnNames(t: Table, name: string, v: seq<real>)
    ensures Names(SetColumn(t, name, v)) == if name in Names(t) then Names(t) else Names(t) + [name]
  {
    if t != [] && t[0].name != name {
      SetColumnNames(t[1..], name, v);
      assert Names(t) == [t[0].name] + Names(t[1..]);
    }
  }

  /** Afterwards `df[name]` is the new column. */
  lemma {:induction false} SetColumnFinds(t: Table, name: string, v: seq<real>)
    ensures Lookup(SetColumn(t, name, v), name) == Some(v)
  {
    if t != [] && t[0].name != name {
      SetColumnFinds(t[1..], name, v);
    }
  }

  /** Setting one column leaves every other column as it was. */
  lemma {:induction false} SetColumnLeavesOthers(t: Table, name: string, v: seq<real>, other: string)
    requires other != name
    ensures Lookup(SetColumn(t, name, v), other) == Lookup(t, other)
  {
    if t != [] && t[0].name != name {
      SetColumnLeavesOthers(t[1..], name, v, other);
    }
  }

  /** Setting a column never introduces a repeated name. */
  lemma SetColumnKeepsDistinct(t: Table, name: string, v: seq<real>)
    requires Distinct(Names(t))
    ensures Distinct(Names(SetColumn(t, name, v)))
  {
    SetColumnNames(t, name, v);
  }

  /** All columns have n rows. */
  predicate Width(t: Table, n: nat) {
    forall k :: 0 <= k < |t| ==> |t[k].values| == n
  }

  lemma {:induction false} SetColumnWidth(t: Table, name: string, v: seq<real>, n: nat)
    requires Width(t, n) && |v| == n
    ensures Width(SetColumn(t, name, v), n)
  {
    if t != [] && t[0].name != name {
      SetColumnWidth(t[1..], name, v, n);
    }
  }

  /** `pd.DataFrame({ch: data[ch] for ch in channels})`, written as one assignment per channel. */
  function FromColumns(t: Table, chs: seq<string>, data: map<string, seq<real>>): Table
    requires forall c :: c in chs ==> c in data
    decreases |chs|
  {
    if chs == [] then t
    else FromColumns(SetColumn(t, chs[0], data[chs[0]]), chs[1..], data)
  }

  /** Each listed channel's column holds its dictionary entry; other columns are untouched. */
  lemma {:induction false} FromColumnsLookup(t: Table, chs: seq<string>, data: map<string, seq<real>>, c: string)
    requires forall c :: c in chs ==> c in data
    ensures Lookup(FromColumns(t, chs, data), c) == if c in chs then Some(data[c]) else Lookup(t, c)
    decreases |chs|
  {
    if chs != [] {
      var t1 := SetColumn(t, chs[0], data[chs[0]]);
      FromColumnsLookup(t1, chs[1..], data, c);
      if c != chs[0] {
        SetColumnLeavesOthers(t, chs[0], data[chs[0]], c);
      } else {
        SetColumnFinds(t, chs[0], data[chs[0]]);
      }
    }
  }

  lemma {:induction false} FromColumnsWidth(t: Table, chs: seq<string>, data: map<string, seq<real>>, n: nat)
    requires forall c :: c in chs ==> c in data && |data[c]| == n
    requires Width(t, n)
    ensures Width(FromColumns(t, chs, data), n)
    decreases |chs|
  {
    if chs != [] {
      SetColumnWidth(t, chs[0], data[chs[0]], n);
      FromColumnsWidth(SetColumn(t, chs[0], data[chs[0]]), chs[1..], data, n);
    }
  }

  /** Building from a dictionary never repeats a name. */
  lemma {:induction false} FromColumnsKeepsDistinct(t: Table, chs: seq<string>, data: map<string, seq<real>>)
    requires forall c :: c in chs ==> c in data
    requires Distinct(Names(t))
    ensures Distinct(Names(FromColumns(t, chs, data)))
    decreases |chs|
  {
    if chs != [] {
      SetColumnKeepsDistinct(t, chs[0], data[chs[0]]);
      FromColumnsKeepsDistinct(SetColumn(t, chs[0], data[chs[0]]), chs[1..], data);
    }
  }

  lemma DistinctTail(s: seq<string>)
    requires s != [] && Distinct(s)
    ensures Distinct(s[1..])
  {
    forall i, j | 0 <= i < j < |s| - 1 ensures s[1..][i] != s[1..][j] {
      assert s[1..][i] == s[i + 1] && s[1..][j] == s[j + 1];
    }
  }

  /** The columns of a dictionary, in the order of its keys. */
  function ColumnsOf(chs: seq<string>, data: map<string, seq<real>>): (cols: Table)
    requires forall c :: c in chs ==> c in data
    ensures |cols| == |chs|
  {
    seq(|chs|, (k: int) requires 0 <= k < |chs| => Column(chs[k], data[chs[k]]))
  }

  lemma {:induction false} LookupAppend(t: Table, col: Column, c: string)
    ensures Lookup(t + [col], c) ==
      if Lookup(t, c).Some? then Lookup(t, c) else if col.name == c then Some(col.values) else None
  {
    if t != [] {
      assert (t + [col])[1..] == t[1..] + [col];
      LookupAppend(t[1..], col, c);
    }
  }

  /** Setting a name the table lacks appends its column. */
  lemma {:induction false} SetColumnAppends(t: Table, name: string, v: seq<real>)
    requires Lookup(t, name).None?
    ensures SetColumn(t, name, v) == t + [Column(name, v)]
  {
    if t != [] {
      SetColumnAppends(t[1..], name, v);
      assert t == [t[0]] + t[1..];
    }
  }

  /** With distinct names not yet in the table, the channels' columns follow in order. */
  lemma {:induction false} FromColumnsAppends(t: Table, chs: seq<string>, data: map<string, seq<real>>)
    requires forall c :: c in chs ==> c in data
    requires Distinct(chs)
    requires forall i :: 0 <= i < |chs| ==> Lookup(t, chs[i]).None?
    ensures FromColumns(t, chs, data) == t + ColumnsOf(chs, data)
    decreases |chs|
  {
    if chs != [] {
      var col := Column(chs[0], data[chs[0]]);
      SetColumnAppends(t, chs[0], data[chs[0]]);
      var t1 := t + [col];
      var rest := chs[1..];
      forall i | 0 <= i < |rest| ensures Lookup(t1, rest[i]).None? {
        assert rest[i] == chs[i + 1];
        LookupAppend(t, col, rest[i]);
      }
      DistinctTail(chs);
      FromColumnsAppends(t1, rest, data);
      assert ColumnsOf(chs, data) == [col] + ColumnsOf(rest, data);
    }
  }

  // ----- the generator -----

  const SeasonalityColumn: string := "seasonality"
  const PriceColumn: string := "price"
  const SalesColumn: string := "sales"

  predicate Reserved(c: string) {
    c == SeasonalityColumn || c == PriceColumn || c == SalesColumn
  }

  datatype Settings = Settings(
    numRows: int,
    channels: seq<string>,
    includeSeasonality: bool,
    includePrice: bool,
    noiseScale: real)

  /** The arrays the generator computes before assembling the table. */
  datatype Parts = Parts(
    base: seq<real>,
    season: seq<real>,
    price: seq<real>,
    data: map<string, seq<real>>,
    salesNoise: seq<real>,
    sales: seq<real>)

  /** Draws taken before the channel loop: the base driver, then the price when it is included. */
  function ChannelsStart(cfg: Settings): nat
    requires cfg.numRows > 0
  {
    if cfg.includePrice then 2 * cfg.numRows else cfg.numRows
  }

  /** The seasonality array: the sine term, or zeros when excluded. */
  function SeasonArray(cfg: Settings, num: Numerics): (s: seq<real>)
    requires cfg.numRows > 0
    ensures |s| == cfg.numRows
  {
    if cfg.includeSeasonality then Seasonality(num, cfg.numRows) else Zeros(cfg.numRows)
  }

  /** The price array, drawn after the base, or zeros (no draws) when excluded. */
  function DrawPrice(cfg: Settings, rng: Rng): (r: (seq<real>, Rng))
    requires cfg.numRows > 0
    ensures |r.0| == cfg.numRows
    ensures r.1 == Rng(rng.z, if cfg.includePrice then rng.pos + cfg.numRows else rng.pos)
    ensures forall i :: 0 <= i < cfg.numRows ==>
      r.0[i] == if cfg.includePrice then 100.0 + 5.0 * rng.z(rng.pos + i) else 0.0
  {
    if cfg.includePrice then Normal(rng, 100.0, 5.0, cfg.numRows) else (Zeros(cfg.numRows), rng)
  }

  /** Sales: 5 + 1.5 channel effect + 2.5 seasonality - 0.05 price + noise, week by week. */
  function SalesArray(chs: seq<string>, data: map<string, seq<real>>, num: Numerics,
                      season: seq<real>, price: seq<real>, noise: seq<real>): (s: seq<real>)
    requires |season| == |price| == |noise|
    requires forall c :: c in chs ==> c in data && |data[c]| == |noise|
    ensures |s| == |noise|
  {
    seq(|noise|, (i: int) requires 0 <= i < |noise| =>
      5.0 + 1.5 * EffectAt(chs, data, num, i) + 2.5 * season[i] - 0.05 * price[i] + noise[i])
  }

  /**
   * The generator's arrays, drawn in the source's order: base, price (when
   * included), one noise block per channel, then the sales noise. The
   * channel loop is run over draw positions and each spend column built
   * from its position (see SpendColumnsByPosition).
   */
  function Compute(cfg: Settings, num: Numerics, z: nat -> real): (p: Parts)
    requires cfg.numRows > 0
    ensures |p.base| == |p.season| == |p.price| == |p.salesNoise| == |p.sales| == cfg.numRows
    ensures forall c :: c in p.data <==> c in cfg.channels
    ensures forall c :: c in p.data ==> |p.data[c]| == cfg.numRows
  {
    var n := cfg.numRows as nat;
    var base := Normal(Rng(z, 0), 10.0, 1.0, n);
    var season := SeasonArray(cfg, num);
    var price := DrawPrice(cfg, base.1);
    var driver := Driver(base.0, season, price.0);
    var positions := SpendColumns(cfg.channels, n, Position, price.1.pos, map[]);
    var data := Columns(positions.0, SpendColumnAt(driver, z));
    var salesNoise := Normal(Rng(z, positions.1), 0.0, cfg.noiseScale, n).0;
    Parts(base.0, season, price.0, data, salesNoise, SalesArray(cfg.channels, data, num, season, price.0, salesNoise))
  }

  /**
   * The data frame: one column per listed channel, then seasonality and
   * price when included, then sales. Whatever the channel names, `sales`
   * holds the sales array.
   */
  function Assemble(cfg: Settings, p: Parts): (t: Table)
    requires forall c :: c in cfg.channels ==> c in p.data
    ensures Lookup(t, SalesColumn) == Some(p.sales)
  {
    var t0 := FromColumns([], cfg.channels, p.data);
    var t1 := if cfg.includeSeasonality then SetColumn(t0, SeasonalityColumn, p.season) else t0;
    var t2 := if cfg.includePrice then SetColumn(t1, PriceColumn, p.price) else t1;
    SetColumnFinds(t2, SalesColumn, p.sales);
    SetColumn(t2, SalesColumn, p.sales)
  }

  datatype GenError = InvalidRows | NegativeNoiseScale

  datatype Generated = Ok(table: Table) | Failed(error: GenError)

  /**
   * `generate_media_marketing_data`. The row count is asserted positive
   * first; a negative noise scale makes the final normal draw raise.
   */
  function Generate(cfg: Settings, num: Numerics, z: nat -> real): (r: Generated)
    ensures r.Failed? <==> cfg.numRows <= 0 || cfg.noiseScale < 0.0
    ensures r.Failed? && cfg.numRows <= 0 ==> r.error == InvalidRows
    ensures r.Failed? && cfg.numRows > 0 ==> r.error == NegativeNoiseScale
    ensures r.Ok? ==> r.table == Assemble(cfg, Compute(cfg, num, z))
  {
    if cfg.numRows <= 0 then Failed(InvalidRows)
    else if cfg.noiseScale < 0.0 then Failed(NegativeNoiseScale)
    else Ok(Assemble(cfg, Compute(cfg, num, z)))
  }

  /** The data tab only calls the generator when at least one channel is selected. */
  function GenerateFromForm(cfg: Settings, num: Numerics, z: nat -> real): (r: Option<Generated>)
    ensures r.None? <==> cfg.channels == []
    ensures r.Some? ==> r.value == Generate(cfg, num, z)
  {
    if cfg.channels == [] then None else Some(Generate(cfg, num, z))
  }

  // ----- properties -----

  /** The base takes draws [0, n); the price, when included, [n, 2n); excluded confounders are zeros. */
  lemma ConfounderDraws(cfg: Settings, num: Numerics, z: nat -> real)
    requires cfg.numRows > 0
    ensures var p := Compute(cfg, num, z);
      var n := cfg.numRows;
      && (forall i :: 0 <= i < n ==> p.base[i] == 10.0 + z(i))
      && (forall i :: 0 <= i < n ==> p.price[i] == if cfg.includePrice then 100.0 + 5.0 * z(n + i) else 0.0)
      && (forall i :: 0 <= i < n ==> p.season[i] == if cfg.includeSeasonality then Seasonality(num, n)[i] else 0.0)
  {
    var p := Compute(cfg, num, z);
    var base := Normal(Rng(z, 0), 10.0, 1.0, cfg.numRows);
    assert p.base == base.0;
    assert p.price == DrawPrice(cfg, base.1).0;
    assert p.season == SeasonArray(cfg, num);
  }

  /** The positions recorded by the channel loop in Compute. */
  function SpendPositions(cfg: Settings): (r: (map<string, nat>, nat))
    requires cfg.numRows > 0
  {
    SpendColumns(cfg.channels, cfg.numRows, Position, ChannelsStart(cfg), map[])
  }

  /** Compute's spend dictionary and sales noise, in terms of the recorded positions. */
  lemma ComputeUsesPositions(cfg: Settings, num: Numerics, z: nat -> real)
    requires cfg.numRows > 0
    ensures var p := Compute(cfg, num, z);
      && p.data == Columns(SpendPositions(cfg).0, SpendColumnAt(Driver(p.base, p.season, p.price), z))
      && p.salesNoise == Normal(Rng(z, SpendPositions(cfg).1), 0.0, cfg.noiseScale, cfg.numRows).0
  {
    var n := cfg.numRows as nat;
    var base := Normal(Rng(z, 0), 10.0, 1.0, n);
    assert DrawPrice(cfg, base.1).1.pos == ChannelsStart(cfg);
  }

  /**
   * Channel j, at its last occurrence, takes the n draws from
   * ChannelsStart + j n.
   */
  lemma ChannelDraws(cfg: Settings, num: Numerics, z: nat -> real, j: nat)
    requires cfg.numRows > 0 && j < |cfg.channels| && LastOccurrence(cfg.channels, j)
    ensures var p := Compute(cfg, num, z);
      p.data[cfg.channels[j]] == SpendColumn(Driver(p.base, p.season, p.price), z, Block(ChannelsStart(cfg), j, cfg.numRows))
  {
    var p := Compute(cfg, num, z);
    ComputeUsesPositions(cfg, num, z);
    SpendColumnsLast(cfg.channels, cfg.numRows, Position, ChannelsStart(cfg), map[], j);
    var at := SpendPositions(cfg).0[cfg.channels[j]];
    assert at == Block(ChannelsStart(cfg), j, cfg.numRows);
    assert p.data[cfg.channels[j]] == SpendColumnAt(Driver(p.base, p.season, p.price), z)(at);
  }

  /**
   * The confounders drive every channel: between two weeks, channel j's
   * spend changes by 2 times the change in base demand, plus 3 times the
   * change in seasonality, minus 0.03 times the change in price, plus the
   * change in the channel's own noise.
   */
  lemma ConfoundedSpend(cfg: Settings, num: Numerics, z: nat -> real, j: nat, a: nat, b: nat)
    requires cfg.numRows > 0 && j < |cfg.channels| && LastOccurrence(cfg.channels, j)
    requires a < cfg.numRows && b < cfg.numRows
    ensures var p := Compute(cfg, num, z);
      var spend := p.data[cfg.channels[j]];
      var at := Block(ChannelsStart(cfg), j, cfg.numRows);
      && |spend| == cfg.numRows
      && spend[a] - spend[b] ==
           2.0 * (p.base[a] - p.base[b]) + 3.0 * (p.season[a] - p.season[b])
           - 0.03 * (p.price[a] - p.price[b]) + (z(at + a) - z(at + b))
  {
    ChannelDraws(cfg, num, z, j);
    ConfounderDraws(cfg, num, z);
  }

  /** The sales noise takes the n draws after all channels' blocks. */
  lemma SalesNoiseDraws(cfg: Settings, num: Numerics, z: nat -> real)
    requires cfg.numRows > 0
    ensures var p := Compute(cfg, num, z);
      forall i :: 0 <= i < cfg.numRows ==>
        p.salesNoise[i] == cfg.noiseScale * z(Block(ChannelsStart(cfg), |cfg.channels|, cfg.numRows) + i)
  {
    ComputeUsesPositions(cfg, num, z);
    SpendColumnsCursor(cfg.channels, cfg.numRows, Position, ChannelsStart(cfg), map[]);
  }

  /** The generated sales array follows the outcome formula at every week. */
  lemma SalesFormula(cfg: Settings, num: Numerics, z: nat -> real, i: nat)
    requires cfg.numRows > 0 && i < cfg.numRows
    ensures var p := Compute(cfg, num, z);
      p.sales[i] == 5.0 + 1.5 * EffectAt(cfg.channels, p.data, num, i) + 2.5 * p.season[i] - 0.05 * p.price[i] + p.salesNoise[i]
  {
  }

  /**
   * What `df[c]` holds in an assembled table: sales, price and seasonality
   * replace any channel of the same name; other channels hold their spend.
   */
  lemma {:induction false} AssembleLookup(cfg: Settings, p: Parts, c: string)
    requires forall c :: c in cfg.channels ==> c in p.data
    ensures Lookup(Assemble(cfg, p), c) ==
      if c == SalesColumn then Some(p.sales)
      else if c == PriceColumn && cfg.includePrice then Some(p.price)
      else if c == SeasonalityColumn && cfg.includeSeasonality then Some(p.season)
      else if c in cfg.channels then Some(p.data[c])
      else None
  {
    var t0 := FromColumns([], cfg.channels, p.data);
    FromColumnsLookup([], cfg.channels, p.data, c);
    var t1 := if cfg.includeSeasonality then SetColumn(t0, SeasonalityColumn, p.season) else t0;
    SetColumnFinds(t0, SeasonalityColumn, p.season);
    if cfg.includeSeasonality && c != SeasonalityColumn {
      SetColumnLeavesOthers(t0, SeasonalityColumn, p.season, c);
    }
    var t2 := if cfg.includePrice then SetColumn(t1, PriceColumn, p.price) else t1;
    SetColumnFinds(t1, PriceColumn, p.price);
    if cfg.includePrice && c != PriceColumn {
      SetColumnLeavesOthers(t1, PriceColumn, p.price, c);
    }
    SetColumnFinds(t2, SalesColumn, p.sales);
    if c != SalesColumn {
      SetColumnLeavesOthers(t2, SalesColumn, p.sales, c);
    }
  }

  /** The same for a generated table; the seasonality column is the sine term itself. */
  lemma TableLookup(cfg: Settings, num: Numerics, z: nat -> real, c: string)
    requires cfg.numRows > 0 && cfg.noiseScale >= 0.0
    ensures var p := Compute(cfg, num, z);
      Lookup(Generate(cfg, num, z).table, c) ==
        if c == SalesColumn then Some(p.sales)
        else if c == PriceColumn && cfg.includePrice then Some(p.price)
        else if c == SeasonalityColumn && cfg.includeSeasonality then Some(Seasonality(num, cfg.numRows))
        else if c in cfg.channels then Some(p.data[c])
        else None
  {
    AssembleLookup(cfg, Compute(cfg, num, z), c);
  }

  /** When included, the seasonality column is the same whatever the random stream. */
  lemma SeasonalityIgnoresDraws(cfg: Settings, num: Numerics, z1: nat -> real, z2: nat -> real)
    requires cfg.numRows > 0 && cfg.noiseScale >= 0.0 && cfg.includeSeasonality
    ensures Lookup(Generate(cfg, num, z1).table, SeasonalityColumn) == Lookup(Generate(cfg, num, z2).table, SeasonalityColumn)
  {
    TableLookup(cfg, num, z1, SeasonalityColumn);
    TableLookup(cfg, num, z2, SeasonalityColumn);
  }

  lemma ReservedNotListed(chs: seq<string>)
    requires forall i :: 0 <= i < |chs| ==> !Reserved(chs[i])
    ensures SeasonalityColumn !in chs && PriceColumn !in chs && SalesColumn !in chs
  {
  }

  /** A table assembled from distinct, non-colliding channels lists its columns in this order. */
  lemma AssembleOrder(cfg: Settings, p: Parts)
    requires forall c :: c in cfg.channels ==> c in p.data
    requires Distinct(cfg.channels)
    requires forall i :: 0 <= i < |cfg.channels| ==> !Reserved(cfg.channels[i])
    ensures Assemble(cfg, p) ==
      ColumnsOf(cfg.channels, p.data)
      + (if cfg.includeSeasonality then [Column(SeasonalityColumn, p.season)] else [])
      + (if cfg.includePrice then [Column(PriceColumn, p.price)] else [])
      + [Column(SalesColumn, p.sales)]
  {
    var chs := cfg.channels;
    ReservedNotListed(chs);
    FromColumnsAppends([], chs, p.data);
    var t0 := FromColumns([], chs, p.data);
    var cols := ColumnsOf(chs, p.data);
    assert t0 == cols;
    FromColumnsLookup([], chs, p.data, SeasonalityColumn);
    FromColumnsLookup([], chs, p.data, PriceColumn);
    FromColumnsLookup([], chs, p.data, SalesColumn);
    var seasonPart := if cfg.includeSeasonality then [Column(SeasonalityColumn, p.season)] else [];
    var pricePart := if cfg.includePrice then [Column(PriceColumn, p.price)] else [];
    var t1 := if cfg.includeSeasonality then SetColumn(t0, SeasonalityColumn, p.season) else t0;
    if cfg.includeSeasonality {
      SetColumnAppends(t0, SeasonalityColumn, p.season);
      LookupAppend(t0, Column(SeasonalityColumn, p.season), PriceColumn);
      LookupAppend(t0, Column(SeasonalityColumn, p.season), SalesColumn);
    } else {
      assert t0 + seasonPart == t0;
    }
    assert t1 == cols + seasonPart;
    var t2 := if cfg.includePrice then SetColumn(t1, PriceColumn, p.price) else t1;
    if cfg.includePrice {
      SetColumnAppends(t1, PriceColumn, p.price);
      LookupAppend(t1, Column(PriceColumn, p.price), SalesColumn);
    } else {
      assert t1 + pricePart == t1;
    }
    assert t2 == cols + seasonPart + pricePart;
    SetColumnAppends(t2, SalesColumn, p.sales);
  }

  /**
   * For distinct channel names that do not collide with the confounder and
   * sales columns, the columns are the channels in order, then seasonality
   * and price when included, then sales.
   */
  lemma Schema(cfg: Settings, num: Numerics, z: nat -> real)
    requires cfg.numRows > 0 && cfg.noiseScale >= 0.0
    requires Distinct(cfg.channels)
    requires forall i :: 0 <= i < |cfg.channels| ==> !Reserved(cfg.channels[i])
    ensures var p := Compute(cfg, num, z);
      Generate(cfg, num, z).table ==
        ColumnsOf(cfg.channels, p.data)
        + (if cfg.includeSeasonality then [Column(SeasonalityColumn, p.season)] else [])
        + (if cfg.includePrice then [Column(PriceColumn, p.price)] else [])
        + [Column(SalesColumn, p.sales)]
  {
    AssembleOrder(cfg, Compute(cfg, num, z));
  }

  /** An assembled table never repeats a column name, and all columns share the row count. */
  lemma AssembleShape(cfg: Settings, p: Parts, n: nat)
    requires forall c :: c in cfg.channels ==> c in p.data && |p.data[c]| == n
    requires |p.season| == |p.price| == |p.sales| == n
    ensures Distinct(Names(Assemble(cfg, p))) && Width(Assemble(cfg, p), n)
  {
    var t0 := FromColumns([], cfg.channels, p.data);
    FromColumnsKeepsDistinct([], cfg.channels, p.data);
    FromColumnsWidth([], cfg.channels, p.data, n);
    var t1 := if cfg.includeSeasonality then SetColumn(t0, SeasonalityColumn, p.season) else t0;
    SetColumnKeepsDistinct(t0, SeasonalityColumn, p.season);
    SetColumnWidth(t0, SeasonalityColumn, p.season, n);
    var t2 := if cfg.includePrice then SetColumn(t1, PriceColumn, p.price) else t1;
    SetColumnKeepsDistinct(t1, PriceColumn, p.price);
    SetColumnWidth(t1, PriceColumn, p.price, n);
    SetColumnKeepsDistinct(t2, SalesColumn, p.sales);
    SetColumnWidth(t2, SalesColumn, p.sales, n);
  }

  /** Generated tables never repeat a column name and every column has numRows rows. */
  lemma TableShape(cfg: Settings, num: Numerics, z: nat -> real)
    requires cfg.numRows > 0 && cfg.noiseScale >= 0.0
    ensures var t := Generate(cfg, num, z).table;
      Distinct(Names(t)) && forall k :: 0 <= k < |t| ==> |t[k].values| == cfg.numRows
  {
    AssembleShape(cfg, Compute(cfg, num, z), cfg.numRows);
  }

  /** With one channel, no confounders and zero noise, the sales formula reduces to the channel's effect. */
  lemma SingleChannelSales(cfg: Settings, num: Numerics, z: nat -> real, c: string, i: nat)
    requires cfg.numRows > 0 && cfg.channels == [c] && i < cfg.numRows
    requires !cfg.includeSeasonality && !cfg.includePrice && cfg.noiseScale == 0.0
    ensures var p := Compute(cfg, num, z);
      p.sales[i] == 5.0 + 1.2 * num.log1p(p.data[c][i])
  {
    var p := Compute(cfg, num, z);
    ConfounderDraws(cfg, num, z);
    SalesNoiseDraws(cfg, num, z);
    SalesFormula(cfg, num, z, i);
    assert EffectAt([c], p.data, num, i) == 0.8 * num.log1p(p.data[c][i]) + EffectAt([], p.data, num, i);
  }

  /**
   * With one channel, no confounders and zero noise, sales is exactly
   * 5 + 1.2 log1p(spend) week by week.
   */
  lemma SingleChannelNoiseless(cfg: Settings, num: Numerics, z: nat -> real, c: string)
    requires cfg.numRows > 0 && cfg.channels == [c] && !Reserved(c)
    requires !cfg.includeSeasonality && !cfg.includePrice && cfg.noiseScale == 0.0
    ensures var t := Generate(cfg, num, z).table;
      && Lookup(t, c).Some? && Lookup(t, SalesColumn).Some?
      && var spend := Lookup(t, c).value;
         var sales := Lookup(t, SalesColumn).value;
         |spend| == |sales| == cfg.numRows
         && forall i :: 0 <= i < cfg.numRows ==> sales[i] == 5.0 + 1.2 * num.log1p(spend[i])
  {
    var p := Compute(cfg, num, z);
    TableLookup(cfg, num, z, c);
    TableLookup(cfg, num, z, SalesColumn);
    forall i | 0 <= i < cfg.numRows
      ensures p.sales[i] == 5.0 + 1.2 * num.log1p(p.data[c][i])
    {
      SingleChannelSales(cfg, num, z, c, i);
    }
  }

  /** Listing a name twice still gives one column, followed by sales. */
  lemma AssembleRepeatedNames(cfg: Settings, p: Parts, c: string)
    requires cfg.channels == [c, c] && c in p.data && c != SalesColumn
    requires !cfg.includeSeasonality && !cfg.includePrice
    ensures Names(Assemble(cfg, p)) == [c, SalesColumn]
  {
    var t1 := SetColumn([], c, p.data[c]);
    SetColumnNames([], c, p.data[c]);
    assert Names(t1) == [c];
    var t2 := SetColumn(t1, c, p.data[c]);
    SetColumnNames(t1, c, p.data[c]);
    assert Names(t2) == [c];
    SetColumnNames(t2, SalesColumn, p.sales);
    assert [c, c][1..] == [c];
    assert FromColumns([], [c, c], p.data) == FromColumns(t1, [c], p.data);
    assert FromColumns(t1, [c], p.data) == FromColumns(t2, [], p.data) == t2;
  }

  /** With the channel listed twice, its effect enters the sales formula twice. */
  lemma RepeatedChannelSales(cfg: Settings, num: Numerics, z: nat -> real, c: string, i: nat)
    requires cfg.numRows > 0 && cfg.channels == [c, c] && i < cfg.numRows
    requires !cfg.includeSeasonality && !cfg.includePrice && cfg.noiseScale == 0.0
    ensures var p := Compute(cfg, num, z);
      p.sales[i] == 5.0 + 2.4 * num.log1p(p.data[c][i])
  {
    var p := Compute(cfg, num, z);
    ConfounderDraws(cfg, num, z);
    SalesNoiseDraws(cfg, num, z);
    SalesFormula(cfg, num, z, i);
    assert [c, c][1..] == [c];
    assert EffectAt([c], p.data, num, i) == 0.8 * num.log1p(p.data[c][i]) + EffectAt([], p.data, num, i);
    assert EffectAt([c, c], p.data, num, i) == 0.8 * num.log1p(p.data[c][i]) + EffectAt([c], p.data, num, i);
  }

  /**
   * A channel listed twice yields one column, but its effect enters sales
   * twice: with zero noise and no confounders sales is 5 + 2.4 log1p(spend).
   */
  lemma RepeatedChannelCountsTwice(cfg: Settings, num: Numerics, z: nat -> real, c: string)
    requires cfg.numRows > 0 && cfg.channels == [c, c] && !Reserved(c)
    requires !cfg.includeSeasonality && !cfg.includePrice && cfg.noiseScale == 0.0
    ensures var t := Generate(cfg, num, z).table;
      && Names(t) == [c, SalesColumn]
      && Lookup(t, c).Some? && Lookup(t, SalesColumn).Some?
      && var spend := Lookup(t, c).value;
         var sales := Lookup(t, SalesColumn).value;
         |spend| == |sales| == cfg.numRows
         && forall i :: 0 <= i < cfg.numRows ==> sales[i] == 5.0 + 2.4 * num.log1p(spend[i])
  {
    var p := Compute(cfg, num, z);
    TableLookup(cfg, num, z, c);
    TableLookup(cfg, num, z, SalesColumn);
    AssembleRepeatedNames(cfg, p, c);
    forall i | 0 <= i < cfg.numRows
      ensures p.sales[i] == 5.0 + 2.4 * num.log1p(p.data[c][i])
    {
      RepeatedChannelSales(cfg, num, z, c, i);
    }
  }
}

=== FILE: text.dfy ===
/**
 * String helpers with Python's semantics: substring test (`pat in s`),
 * `str.split(sep)`, `s.split(sep)[-1]`, `str.strip()`, and a leftmost search
 * over positions that the regular-expression model builds on.
 */
module Text {
  import opened Optional

  /** The leftmost position in [from, n) satisfying `p`, if there is one. */
  function FirstWhere(n: nat, from: nat, p: nat -> bool): (r: Option<nat>)
    ensures r.Some? ==> from <= r.value < n && p(r.value)
    ensures r.Some? ==> forall j :: from <= j < r.value ==> !p(j)
    ensures r.None? ==> forall j :: from <= j < n ==> !p(j)
    decreases n - from
  {
    if from >= n then None
    else if p(from) then Some(from)
    else FirstWhere(n, from + 1, p)
  }

  /** `pat` occurs in `s` starting at position `i`. */
  predicate OccursAt(s: string, pat: string, i: nat) {
    i + |pat| <= |s| && s[i..i + |pat|] == pat
  }

  /** Python's `pat in s` on strings. */
  function Contains(s: string, pat: string): (b: bool)
    ensures b <==> exists i: nat :: OccursAt(s, pat, i)
  {
    var occurs := (i: nat) => OccursAt(s, pat, i);
    var first := FirstWhere(|s| + 1, 0, occurs);
    if first.Some? then
      assert OccursAt(s, pat, first.value);
      true
    else
      forall i: nat
        ensures !OccursAt(s, pat, i)
      {
        if i < |s| + 1 {
          assert !occurs(i);
        }
      }
      false
  }

  /** The end of the maximal run of characters satisfying `p` that starts at `i`. */
  function RunEnd(s: string, i: nat, p: char -> bool): (j: nat)
    requires i <= |s|
    ensures i <= j <= |s|
    ensures forall k :: i <= k < j ==> p(s[k])
    ensures j < |s| ==> !p(s[j])
    decreases |s| - i
  {
    if i == |s| || !p(s[i]) then i else RunEnd(s, i + 1, p)
  }

  /** Inverse of `Split`: the parts glued back together with `sep`. */
  function Join(parts: seq<string>, sep: char): string
    requires |parts| >= 1
  {
    if |parts| == 1 then parts[0] else parts[0] + [sep] + Join(parts[1..], sep)
  }

  /** Python's `s.split(sep)` for a one-character separator. */
  function Split(s: string, sep: char): (parts: seq<string>)
    ensures |parts| >= 1
    ensures forall k :: 0 <= k < |parts| ==> sep !in parts[k]
    ensures Join(parts, sep) == s
    decreases |s|
  {
    if |s| == 0 then [""]
    else
      var rest := Split(s[1..], sep);
      if s[0] == sep then
        assert s == [sep] + s[1..];
        [""] + rest
      else
        var parts := [[s[0]] + rest[0]] + rest[1..];
        assert parts[1..] == rest[1..];
        assert s == [s[0]] + s[1..];
        parts
  }

  lemma {:induction false} JoinEndsWithLast(parts: seq<string>, sep: char)
    requires |parts| >= 2
    ensures Join(parts, sep) == Join(parts[..|parts| - 1], sep) + [sep] + parts[|parts| - 1]
    decreases |parts|
  {
    if |parts| > 2 {
      JoinEndsWithLast(parts[1..], sep);
      assert parts[1..][..|parts[1..]| - 1] == parts[..|parts| - 1][1..];
    }
  }

  /** Python's `s.split(sep)[-1]`: the text after the last `sep`, or all of `s`. */
  function LastField(s: string, sep: char): (r: string)
    ensures sep !in r
    ensures |r| <= |s| && r == s[|s| - |r|..]
    ensures |r| < |s| ==> s[|s| - |r| - 1] == sep
  {
    var parts := Split(s, sep);
    if |parts| == 1 then parts[0]
    else
      JoinEndsWithLast(parts, sep);
      parts[|parts| - 1]
  }

  /** Python's `str.isspace()` for one character. */
  predicate IsSpace(c: char) {
    var n := c as int;
    9 <= n <= 13 || 28 <= n <= 32 || n == 133 || n == 160 || n == 5760
    || 8192 <= n <= 8202 || n == 8232 || n == 8233 || n == 8239 || n == 8287 || n == 12288
  }

  function TrimStart(s: string): (r: string)
    ensures |r| <= |s| && r == s[|s| - |r|..]
    ensures forall k :: 0 <= k < |s| - |r| ==> IsSpace(s[k])
    ensures r != [] ==> !IsSpace(r[0])
    decreases |s|
  {
    if s != [] && IsSpace(s[0]) then TrimStart(s[1..]) else s
  }

  function TrimEnd(s: string): (r: string)
    ensures |r| <= |s| && r == s[..|r|]
    ensures forall k :: |r| <= k < |s| ==> IsSpace(s[k])
    ensures r != [] ==> !IsSpace(r[|r| - 1])
    decreases |s|
  {
    if s != [] && IsSpace(s[|s| - 1]) then TrimEnd(s[..|s| - 1]) else s
  }

  /** `r` sits in `s` at `i`, with only characters satisfying `p` before and after it. */
  predicate FramedBy(s: string, i: nat, r: string, p: char -> bool) {
    && i + |r| <= |s| && r == s[i..i + |r|]
    && (forall k :: 0 <= k < i ==> p(s[k]))
    && (forall k :: i + |r| <= k < |s| ==> p(s[k]))
  }

  /** Python's `str.strip()` with no argument. */
  function Strip(s: string): (r: string)
    ensures |r| <= |s|
    ensures r != [] ==> !IsSpace(r[0]) && !IsSpace(r[|r| - 1])
    ensures exists i: nat :: FramedBy(s, i, r, IsSpace)
  {
    var t := TrimStart(s);
    FramedAfterTrims(s, t, TrimEnd(t), IsSpace);
    TrimEnd(t)
  }

  /** Cutting a run of `p` off the front and then off the back leaves a piece framed by `p`. */
  lemma FramedAfterTrims(s: string, t: string, r: string, p: char -> bool)
    requires |t| <= |s| && t == s[|s| - |t|..] && forall k :: 0 <= k < |s| - |t| ==> p(s[k])
    requires |r| <= |t| && r == t[..|r|] && forall k :: |r| <= k < |t| ==> p(t[k])
    ensures FramedBy(s, |s| - |t|, r, p)
  {
    var i := |s| - |t|;
    forall k | i + |r| <= k < |s|
      ensures p(s[k])
    {
      assert s[k] == t[k - i];
    }
  }


}
